=== FILE: README.md ===
# Product-ingredient search core, modelled in Dafny

This project models the deterministic core of a product-ingredient search
assistant. The assistant searches store web sites for a product, has a
language model assess each hit's ingredients, stores every hit with its
assessment in a vector database, and renders a grouped report.

The model covers four parts:

- **Risk classifier** (`extract_harmful_ingredients`, `get_risk_emoji`). A
  total function from the model's free-text analysis to a verdict: risk
  level by keyword precedence, the flagged lines (at most 5), and the
  "harmful section" excerpt (at most 500 characters). The excerpt comes from
  a line-scanning state machine. A lookup turns the level into its badge.
- **Ingredient extractor** (`extract_ingredients_from_content`). The
  300-character window at the first trigger phrase, with the phrases tried
  in priority order. Without a trigger phrase it falls back to the start of
  the page.
- **Product store** (`initialize_qdrant`, `save_product_to_qdrant`,
  `search_similar_products`, `get_all_products`, `get_collection_stats`).
  The database is an optional collection holding a sequence of records.
  Create-if-absent initialisation, the save with its payload and upsert,
  and the empty answers the reads give on an exception.
- **Result aggregation** (`format_results_simple`). Store attribution by
  URL substring, where the first store in list order wins. Grouping per
  store in input order, the analysis and save of every attributed hit, the
  saved count, and the report with one section per selected store.

Everything is a pure function over immutable datatypes. Strings are
`seq<char>`, one element per Python code point.

External collaborators become parameters:

- the embedding model (`embed: string -> Vector`);
- the analysis service (`analyze`, answering `(success, text)`, indexed by the hit's position so that repeated calls may answer differently);
- `uuid4` and `datetime.now()` (`idAt`, `clockAt`, indexed by the hit's position);
- an exception raised by the storage client (`fault: Option<string>`, whose value is the exception text);
- the engine's nearest-neighbour ranking (`nearest`).

Files:

- `wrappers.dfy`: the `Option` type.
- `text.dfy`: the Python string operations used. These are `lower()`, `in`,
  `find()`, `startswith()`, `strip()`, `split('\n')`, `'\n'.join()`,
  `replace(" ", "")`, slicing and `str(int)`. Split and join come with both
  round-trip lemmas.
- `risk_classifier.dfy`: ingredient_analyzer.py.
- `ingredient_extractor.dfy` and `product_store.dfy`: qdrant_manager.py.
- `result_aggregator.dfy`: `format_results_simple` of search_agent.py.
- `attribution_examples.dfy`: store attribution on concrete URLs.

In these points the model follows the code where a reader of the
program's purpose might expect otherwise:

- Supplied ingredients are not truncated for storage. A non-empty supplied
  `ingredients` value is stored unchanged; only the extractor's output is
  bounded, to 300 characters.
- The "no products found" explanation appears only when the hit list is
  empty, not when no hit is attributed to any store. Hits that match no
  store give a full report whose every section says "No results found".
- The verdict's level and flagged items are not shown for every attributed
  hit, only for hits whose save succeeded with a non-empty analysis. A hit
  whose save failed shows a 200-character content snippet.
- Only the returned `harmful_section` is truncated to 500 characters. The
  flagged lines are picked from the untruncated section.

## Model

| member | source | states |
|---|---|---|
| RiskClassifier.Classify | ingredient_analyzer.py:14-78 | Empty analysis gives UNKNOWN, no flags and an empty section, before anything else is examined. Any other analysis is SAFE, HIGH, MODERATE or LOW, never UNKNOWN. `has_harmful` holds iff the level is HIGH or MODERATE. SAFE holds iff a "no harmful" / "no concerning" / ✅ marker is present, whatever risk words also appear. HIGH holds iff there is no safe marker and "high risk" is present. LOW holds iff none of the safe, high, moderate or caution markers is present. At most 5 flagged lines and at most 500 excerpt characters. Flags only on a harmful verdict. A non-empty excerpt only when the text mentions "harmful" or "concerning". The excerpt is the first 500 characters of the joined section lines. A MODERATE verdict reached only through the caution words flags no lines. |
| RiskClassifier.FlaggedItemsComeFromSection | ingredient_analyzer.py:56-68 | Every flagged item is a stripped line of the harmful section that passes the test of the verdict's level. For HIGH the line holds "high risk" (any case) or the warning glyph. For MODERATE it holds "risk". |
| RiskClassifier.SectionIsDelimited | ingredient_analyzer.py:26-46 | For an analysis mentioning harm, the section is exactly the lines from the first line holding harmful / concerning ingredients / risk up to the first heading after it that mentions none of harmful / concerning / risk. That heading is excluded. |
| RiskClassifier.ScanFindsSection | ingredient_analyzer.py:29-44 | The line loop yields the lines from the first opening line up to, not including, the first closing line after it, or to the end of the text. |
| RiskClassifier.ScanWithinSection | ingredient_analyzer.py:39-44 | Once inside the section, the loop keeps every line until the first closing heading and stops there (the `break`). |
| RiskClassifier.ScanWithoutStart | ingredient_analyzer.py:32-38 | With no opening line the section is empty. |
| RiskClassifier.ScanSection | ingredient_analyzer.py:32-44 | The scan keeps no more lines than it reads, and only lines of the text. |
| RiskClassifier.SectionLines | ingredient_analyzer.py:21-46 | `harmful_lines` is empty unless the analysis mentions "harmful" or "concerning". It has no more lines than the analysis, and each is a line of the analysis. |
| RiskClassifier.StartNeverEnds | ingredient_analyzer.py:36-43 | A line that opens the section mentions one of the keep words, so it can never close the section. |
| RiskClassifier.NoSectionNoItems | ingredient_analyzer.py:60-68 | With no section lines nothing is flagged: the split of the empty section is one empty line, which passes no flag test. |
| RiskClassifier.HarmfulListIsFiltered | ingredient_analyzer.py:56-75 | A HIGH verdict's list, and the list of a MODERATE verdict reached through "moderate risk" or ⚠️, is the first 5 stripped section lines that pass the level's flag test. |
| RiskClassifier.CollectFlagged | ingredient_analyzer.py:60-68 | Each kept line passes the test and is a line of the input, and every passing line is kept. |
| RiskClassifier.CollectFlaggedAppend | ingredient_analyzer.py:60-68 | Filtering a concatenation concatenates the filtered parts. With `CollectFlaggedOne` this fixes the result as the passing lines in input order, repeats kept, which decides the five that `harmful_list[:5]` keeps. |
| RiskClassifier.CollectFlaggedOne | ingredient_analyzer.py:61-62 | A single line is kept exactly when it passes the test. |
| RiskClassifier.Flags | ingredient_analyzer.py:61-67 | Only HIGH and MODERATE flag lines. At HIGH a line needs "high risk" (any case) or ⚠️. At MODERATE a line is flagged iff it holds "risk", because "moderate risk" adds nothing. |
| RiskClassifier.RiskWithinModerateRisk | ingredient_analyzer.py:67 | Any text holding "moderate risk" holds "risk". |
| RiskClassifier.ContainsAny | ingredient_analyzer.py:36 | `any(k in s for k in keys)` holds iff some key occurs in the text. |
| RiskClassifier.RiskEmoji | ingredient_analyzer.py:81-90 | HIGH, MODERATE, LOW and SAFE map to 🔴, 🟡, 🟢 and ✅. Every other input, UNKNOWN included, maps to ⚪. |
| RiskClassifier.EmojiSeparatesLevels | ingredient_analyzer.py:83-89 | Different levels get different badges. |
| IngredientExtractor.ExtractIngredients | qdrant_manager.py:42-68 | The result is at most 300 characters and is a contiguous substring of the content. |
| IngredientExtractor.ExtractAtFirstListedKeyword | qdrant_manager.py:50-62 | When a trigger phrase occurs, the result is the 300-character window at the first occurrence of the first phrase in list order that occurs. This is not necessarily the earliest position. The window begins with that phrase, case aside. |
| IngredientExtractor.WindowStartsWithKeyword | qdrant_manager.py:52-61 | A window cut from the original text at a match found in its lower-cased copy begins with the phrase, case aside, because lower-casing keeps indices. |
| IngredientExtractor.ExtractWithoutKeyword | qdrant_manager.py:64-66 | With no trigger phrase the result is the first 300 characters of the content, so empty content gives an empty result. |
| IngredientExtractor.TitleHasNoEffect | qdrant_manager.py:42-68 | The title argument never changes the result. |
| IngredientExtractor.KeywordWindow | qdrant_manager.py:56-62 | The keyword loop yields at most 300 characters, taken contiguously from the content. |
| IngredientExtractor.WindowAtFirstListed | qdrant_manager.py:56-62 | When phrase j occurs and no earlier-listed phrase does, the loop yields the window at phrase j's first occurrence. |
| IngredientExtractor.WindowAbsent | qdrant_manager.py:56-62 | When no phrase occurs the loop yields nothing. |
| ProductStore.Initialize | qdrant_manager.py:16-39 | True iff no exception. A missing collection is created with 384 dimensions, cosine distance and no records. An existing collection, or any exception, leaves the store unchanged. |
| ProductStore.InitializeIdempotent | qdrant_manager.py:20-36 | Initializing a second time, whatever that call meets, changes nothing after a successful first call. |
| ProductStore.InitializeKeepsWellFormed | qdrant_manager.py:23-31 | Initialisation keeps every stored vector at 384 dimensions and every id unique. |
| ProductStore.Upsert | qdrant_manager.py:107-111 | A point with a new id is appended. A point with a stored id replaces, position by position, every point with that id and leaves every other point where it was. The point is then stored, every other record was stored before, the ids grow by the point's id, and unique ids stay unique. |
| ProductStore.UpsertIdempotent | qdrant_manager.py:107-111 | Upserting the same point twice is upserting it once. |
| ProductStore.ResolveIngredients | qdrant_manager.py:79-85 | Non-empty supplied ingredients are used unchanged. Otherwise the result is exactly the extractor's output for the content and title, which is at most 300 characters of the content. |
| ProductStore.NewPoint | qdrant_manager.py:86-105 | The point carries the given id and the embedding of title, a space, and the resolved ingredients. Its payload copies title, URL, store, description and analysis, holds the resolved ingredients and the given timestamp, and keeps the first min(500, length) characters of the page text. |
| ProductStore.Save | qdrant_manager.py:71-116 | Success iff no exception, the collection exists and the embedding has the collection's dimension. A failure leaves the store untouched and returns the exception text. A success returns the resolved ingredients, keeps the collection's dimension and stores the new record. With a fresh id the store becomes the old records plus exactly that record. |
| ProductStore.SaveAppendsOneRecord | qdrant_manager.py:92-113 | A successful save with a fresh id adds exactly one record, keeps every earlier record in place, and gives the new record that id. The new record holds the content cut to 500 characters and the resolved ingredients. |
| ProductStore.SaveKeepsWellFormed | qdrant_manager.py:87-111 | A save keeps every stored vector at 384 dimensions and every id unique. |
| ProductStore.SearchSimilar | qdrant_manager.py:119-141 | An exception, a missing collection or a query vector of the wrong dimension gives the empty list. |
| ProductStore.ListAll | qdrant_manager.py:144-155 | At most 100 records, each one stored. An exception or a missing collection gives the empty list. With 100 records or fewer, all of them are returned. |
| ProductStore.CollectionStats | qdrant_manager.py:158-169 | Statistics exist iff there is no exception and the collection exists; otherwise the answer is the empty dictionary. The count is the number of stored records, and a well-formed store reports 384 dimensions. |
| ResultAggregator.FirstMatchingStore | search_agent.py:30-35 | No store iff no store's lower-cased, space-free name occurs in the lower-cased URL. Otherwise the answer is the first such store in list order. |
| ResultAggregator.FirstMatchUnique | search_agent.py:31-35 | At most one position is the first matching store. |
| ResultAggregator.Attribute | search_agent.py:28-36 | A hit is filed under the first matching store unless that store's name is empty, which Python reads as false. Both directions hold: no store exactly when nothing matches or the first match is the empty name. |
| AttributionExamples.ColesExample | search_agent.py:30-35 | With stores `["Coles", "Aldi"]`, the hit `https://www.coles.com.au/product/123` is filed under "Coles". |
| AttributionExamples.NoStoreExample | search_agent.py:30-36 | With the same stores, `https://shop.net/item` names neither store and the hit is dropped. |
| ResultAggregator.SaveInput | search_agent.py:42-63 | The record saved for a hit carries the hit's title, URL and content, the store and the description, and no ingredients, so the save extracts them. Its analysis is the service's text when the service succeeded and "" when it failed. |
| ResultAggregator.FileEntry | search_agent.py:37-39 | The entry becomes the last of its store's group, which is created when missing. The group's hits are the old ones plus this hit, and no other group changes. |
| ResultAggregator.ProcessHit | search_agent.py:27-69 | An unattributed hit changes nothing: it is not grouped, analysed or saved. An attributed hit becomes the last entry of its store's group and is saved whatever the analysis answered. The count grows by one exactly when the save succeeds. The filed entry carries the save's ingredients and the analysis exactly when the save succeeded. |
| ResultAggregator.FiledEntry | search_agent.py:64-69 | The entry keeps the hit. It carries `extracted_ingredients` (the save's returned text) and `groq_analysis` iff the save succeeded, and nothing otherwise. |
| ResultAggregator.ProcessHits | search_agent.py:27-69 | The loop over the hits in input order. Every group belongs to a selected store with a non-empty name, and the count rises at most once per hit. |
| ResultAggregator.FreshSaveStep | search_agent.py:64-66 | A turn whose id is not yet stored appends one record, with that id, exactly when it counts a save. The earlier records are kept in place. |
| ResultAggregator.GroupStep | search_agent.py:36-39 | One loop turn adds the hit to its own store's group only. |
| ResultAggregator.GroupOfStore | search_agent.py:27-39 | A store has a group iff some hit is attributed to it. The group holds exactly the hits attributed to it, in input order. |
| ResultAggregator.GroupsFollowAttribution | search_agent.py:27-39 | The same, for every store at once. |
| ResultAggregator.SavedAtMostAttributed | search_agent.py:64-66 | `saved_count` never exceeds the number of attributed hits. |
| ResultAggregator.SavedAllAttributed | search_agent.py:53-66 | When no save can fail, `saved_count` is the number of attributed hits, even where the analysis failed. The collection survives with its dimension. |
| ResultAggregator.SavedCountIsRecordsAdded | search_agent.py:64-66 | With fresh ids, `saved_count` is exactly the number of records the run added. The earlier records are kept in place, and every stored id is an earlier one or one the run issued. |
| ResultAggregator.RecordsStep | search_agent.py:36-64 | One loop turn stores at most the record of its own hit, and only when that hit is attributed. |
| ResultAggregator.AddedRecordsAreAttributed | search_agent.py:36-69 | Every record the run added belongs to an attributed hit, with that hit's URL and store. |
| ResultAggregator.ItemOf | search_agent.py:79-109 | Title and link default to "No title" and "#". The verdict and full analysis are shown iff a save stored a non-empty analysis, and the verdict is the classifier's. Otherwise the stored ingredients are shown iff there are any. Otherwise, including every hit whose save failed, `content[:200]` is shown, with "No description available" for missing content. |
| ResultAggregator.RenderDisplay | search_agent.py:88-109 | A rated hit's text is exactly three parts: the badge and level line, then the flagged list under the warning heading (or the all-clear line), then the full analysis. Prefix, middle piece, suffix and total length fix it. Details show the ingredients line; a snippet is followed by "...". |
| ResultAggregator.FlaggedItemShown | search_agent.py:96-101 | Every flagged ingredient of a harmful verdict appears in the hit's text as a bullet `- item`. |
| ResultAggregator.BulletInOrder | search_agent.py:98-100 | The bullets follow the flagged list's order. |
| ResultAggregator.RenderItem | search_agent.py:85-111 | A hit's text is exactly its `### title` line, then the link line, then its details and the `---` rule. |
| ResultAggregator.ItemTextInOrder | search_agent.py:78-111 | Within a section the hits' texts follow their group order. |
| ResultAggregator.BuildReport | search_agent.py:75-113 | One section per selected store, in `stores` order. "No results" iff the store has no group; otherwise the section holds the group's items. |
| ResultAggregator.RenderSection | search_agent.py:76-113 | A section's text opens with its "## store" heading. A store with hits continues with its hits' texts and nothing else. A store without hits shows only "❌ No results found at store". |
| ResultAggregator.SectionTextInOrder | search_agent.py:75-113 | In the report text, each section's text follows directly after the text of the sections before it. |
| ResultAggregator.ReportFollowsHits | search_agent.py:27-113 | The built report has one section per store, in order. "No results" appears iff no hit is attributed to the store. Each other section lists the titles and links of the store's hits in input order. |
| ResultAggregator.RenderReport | search_agent.py:72-113 | The report is exactly the "# Search Results for:" heading, then the saved-count line, then the sections' text. |
| ResultAggregator.ReportShowsSavedCount | search_agent.py:73 | The digits on the saved line, right after the heading, spell `saved_count`. |
| ResultAggregator.NoProductsMessage | search_agent.py:20-21 | The empty-search explanation names the product in quotes and, unlike a report, does not open with "#". |
| ResultAggregator.SavedCountUnderAssumptions | search_agent.py:64-66 | The saved count equals the attributed count when no save can fail, and equals the records added when ids are fresh. |
| ResultAggregator.FormatResults | search_agent.py:16-115 | No hits: the "No products found for '…'" message, no report, the store unchanged and nothing saved. Otherwise the text renders the report, whose saved count is the run's, and the report's sections follow the hits' attribution. `saved_count` is at most the number of attributed hits. It equals that number when no save can fail. With fresh ids it is exactly the number of records appended behind the ones already stored. Every added record belongs to an attributed hit. |
| Text.Contains | search_agent.py:33 | Python's `in` holds iff the pattern occurs at some index. |
| Text.FirstCharAbsent | search_agent.py:33 | A pattern whose first character never appears in the text is not `in` it. |
| Text.Find | qdrant_manager.py:59 | `find` gives the least index where the pattern occurs, or -1 iff it occurs nowhere. |
| Text.Lower | search_agent.py:32-33 | `lower()` keeps the length and lowers each character in place, ASCII letters only. |
| Text.RemoveSpaces | search_agent.py:32 | `replace(" ", "")` leaves no space and never lengthens the text. |
| Text.RemoveSpacesAppend | search_agent.py:32 | Removing spaces from a concatenation removes them from each part. Together with RemoveSpacesOne, every non-space character is kept, in order. |
| Text.RemoveSpacesOne | search_agent.py:32 | A single character is removed iff it is a space. |
| Text.NatToString | search_agent.py:73 | `str(n)` is non-empty decimal digits with no leading zero, and the digits spell `n`. |
| Text.JoinSplitLines | ingredient_analyzer.py:28-46 | Joining the pieces of `split('\n')` with line breaks gives the text back. |
| Text.SplitJoinLines | ingredient_analyzer.py:46-60 | Re-splitting the joined section lines gives those lines back, because they hold no line break. |
| Text.Strip | ingredient_analyzer.py:62 | `strip()` keeps a piece of the line surrounded only by white space, and that piece neither starts nor ends with white space. |
| Text.StripIsUnique | ingredient_analyzer.py:62 | These two promises pin the result down: any piece meeting them is the stripped text. |
| Text.StripIsSubstring | ingredient_analyzer.py:62 | What `strip()` keeps is a contiguous piece of the line. |

## Left out

- The Streamlit UI (app.py) is not part of this model. It is presentation and session state only.
- groq_analyzer.py is not part of this model. Its prompt building around a hosted model call appears only as the `analyze` parameter's `(success, text)` answer.
- inngest_monitor.py is not part of this model. It is fire-and-forget telemetry.
- The web-search functions (search_agent.py:118-180) are not modelled. They are a thin client call; the hits they return are the model's input.
- The embedding model, the cosine nearest-neighbour ranking and the scroll order are library behaviour over floating point. The embedding is an uninterpreted function. Ranking is the unconstrained `nearest` parameter. The listing is taken in storage order.
- ProductStore.SearchSimilar: states only the empty answer on an error. The result otherwise comes from the `nearest` parameter, so the save-then-search round trip is not stated.
- `uuid4()` and `datetime.now()` are parameters. Freshness of ids is an explicit assumption (`FreshIds`) where a lemma needs it.
- The storage engine's own failure texts are not visible. A missing collection and a wrong vector dimension are failures with fixed model messages. Any other exception is the `fault` parameter.
- `lower()` is modelled for ASCII letters only, so that indices in the text and its lower-cased form coincide. Unicode case folding is left out.
- A missing (`None`) analysis passed to the classifier is modelled as the empty string. Both are falsy and give the same verdict.
- The UNKNOWN verdict of the source has no `harmful_section` key. The model gives it the empty excerpt.
- The analysis service's error text is ignored, as in the source: a failed analysis is saved as "".
- `format_results_simple` writes `extracted_ingredients` and `groq_analysis` into the caller's hit dictionaries. The model keeps them beside the hit instead. This includes the case where the same dictionary object appears twice in the input. It also assumes the incoming hits do not already carry those two keys.
- The console messages printed on each exception are left out.

=== FILE: attribution_examples.dfy ===
/** Store attribution checked on concrete data:
    with stores `["Coles", "Aldi"]`, a Coles product URL is filed under
    "Coles" and a URL naming neither store is dropped. */
module AttributionExamples {
  import opened Wrappers
  import opened Text
  import opened ResultAggregator

  lemma ColesDomain()
    ensures StoreDomain("Coles") == "coles"
  {
    assert Lower("Coles") == "coles";
    RemoveSpacesKeeps("coles");
  }

  lemma AldiDomain()
    ensures StoreDomain("Aldi") == "aldi"
  {
    assert Lower("Aldi") == "aldi";
    RemoveSpacesKeeps("aldi");
  }

  lemma ColesUrlIsLower()
    ensures Lower("https://www.coles.com.au/product/123") == "https://www.coles.com.au/product/123"
  {
    LowerKeeps("https://www.coles.com.au/product/123");
  }

  lemma ColesUrlNamesColes()
    ensures OccursAt("https://www.coles.com.au/product/123", "coles", 12)
  {
    assert "https://www.coles.com.au/product/123" == "https://www." + "coles" + ".com.au/product/123";
  }

  lemma ShopUrl()
    ensures Lower("https://shop.net/item") == "https://shop.net/item"
    ensures 'c' !in "https://shop.net/item" && 'a' !in "https://shop.net/item"
  {
    LowerKeeps("https://shop.net/item");
  }

  /** The first store whose name occurs in the URL wins. */
  lemma ColesExample()
    ensures Attribute(Hit(None, Some("https://www.coles.com.au/product/123"), None), ["Coles", "Aldi"]) == Some("Coles")
  {
    ColesDomain();
    ColesUrlIsLower();
    ColesUrlNamesColes();
    assert IsFirstMatch("https://www.coles.com.au/product/123", ["Coles", "Aldi"], 0);
  }

  /** A URL that names no store is attributed to none. */
  lemma NoStoreExample()
    ensures Attribute(Hit(None, Some("https://shop.net/item"), None), ["Coles", "Aldi"]) == None
  {
    var url := "https://shop.net/item";
    var stores := ["Coles", "Aldi"];
    ColesDomain();
    AldiDomain();
    ShopUrl();
    FirstCharAbsent(url, "coles");
    FirstCharAbsent(url, "aldi");
    assert !Matches(url, stores[0]);
    assert !Matches(url, stores[1]);
  }
}

=== FILE: ingredient_extractor.dfy ===
/** `extract_ingredients_from_content` of qdrant_manager.py: a fixed-size
    window of the page text starting at the first trigger phrase, trying the
    phrases in a fixed priority order, with the start of the page as fallback. */
module IngredientExtractor {
  import opened Text

  /** The trigger phrases, in priority order. */
  const Keywords: seq<string> := ["ingredients", "contains", "composition", "made with", "made from"]
  const WindowLength: nat := 300

  /** The keyword loop with its `break`: the window at the first occurrence of
      the first phrase (in list order) that occurs in `lower`, or "" when none
      occurs. `lower` is the lower-cased `content`, so indices carry over. */
  function KeywordWindow(content: string, lower: string, keywords: seq<string>): (r: string)
    requires |lower| == |content|
    ensures |r| <= WindowLength
    ensures Contains(content, r)
  {
    if |keywords| == 0 then
      assert OccursAt(content, "", 0);
      ""
    else if Contains(lower, keywords[0]) then
      var start := Find(lower, keywords[0]);
      var r := content[start..Min(start + WindowLength, |content|)];
      assert OccursAt(content, r, start);
      r
    else KeywordWindow(content, lower, keywords[1..])
  }

  /** `extract_ingredients_from_content(content, title)`. */
  function ExtractIngredients(content: string, title: string): (r: string)
    ensures |r| <= WindowLength
    ensures Contains(content, r)
  {
    var found := KeywordWindow(content, Lower(content), Keywords);
    if found == "" then
      assert OccursAt(content, Take(content, WindowLength), 0);
      Take(content, WindowLength)
    else found
  }

  lemma {:induction false} WindowAtFirstListed(content: string, lower: string, keywords: seq<string>, j: int)
    requires |lower| == |content|
    requires 0 <= j < |keywords|
    requires Contains(lower, keywords[j])
    requires forall k :: 0 <= k < j ==> !Contains(lower, keywords[k])
    ensures var p := Find(lower, keywords[j]);
      KeywordWindow(content, lower, keywords) == content[p..Min(p + WindowLength, |content|)]
  {
    if j > 0 {
      WindowAtFirstListed(content, lower, keywords[1..], j - 1);
    }
  }

  lemma {:induction false} WindowAbsent(content: string, lower: string, keywords: seq<string>)
    requires |lower| == |content|
    requires forall k :: 0 <= k < |keywords| ==> !Contains(lower, keywords[k])
    ensures KeywordWindow(content, lower, keywords) == ""
  {
    if |keywords| > 0 {
      WindowAbsent(content, lower, keywords[1..]);
    }
  }

  /** When some trigger phrase occurs, the result is the 300-character window
      at the first occurrence of the first phrase IN LIST ORDER that occurs
      (not of the phrase that occurs earliest), and it begins with that
      phrase, case aside. */
  lemma ExtractAtFirstListedKeyword(content: string, title: string, j: int)
    requires 0 <= j < |Keywords|
    requires Contains(Lower(content), Keywords[j])
    requires forall k :: 0 <= k < j ==> !Contains(Lower(content), Keywords[k])
    ensures var p := Find(Lower(content), Keywords[j]);
      ExtractIngredients(content, title) == content[p..Min(p + WindowLength, |content|)]
    ensures StartsWith(Lower(ExtractIngredients(content, title)), Keywords[j])
  {
    var lower := Lower(content);
    var kw := Keywords[j];
    var p := Find(lower, kw);
    WindowAtFirstListed(content, lower, Keywords, j);
    var r := content[p..Min(p + WindowLength, |content|)];
    KeywordFitsWindow(j);
    assert |kw| <= |r|;
    assert ExtractIngredients(content, title) == r;
    WindowStartsWithKeyword(content, lower, kw, p);
  }

  /** The window taken at an occurrence of `kw` in the lower-cased text begins with `kw`, case aside. */
  lemma WindowStartsWithKeyword(content: string, lower: string, kw: string, p: int)
    requires lower == Lower(content)
    requires OccursAt(lower, kw, p)
    requires |kw| <= WindowLength
    ensures StartsWith(Lower(content[p..Min(p + WindowLength, |content|)]), kw)
  {
    var r := content[p..Min(p + WindowLength, |content|)];
    assert Lower(r)[..|kw|] == lower[p..p + |kw|];
  }

  lemma KeywordFitsWindow(j: int)
    requires 0 <= j < |Keywords|
    ensures 0 < |Keywords[j]| <= WindowLength
  {
  }

  /** With no trigger phrase the result is the first 300 characters. */
  lemma ExtractWithoutKeyword(content: string, title: string)
    requires forall k :: 0 <= k < |Keywords| ==> !Contains(Lower(content), Keywords[k])
    ensures ExtractIngredients(content, title) == Take(content, WindowLength)
  {
    WindowAbsent(content, Lower(content), Keywords);
  }

  /** The title argument has no effect on the result. */
  lemma TitleHasNoEffect(content: string, title1: string, title2: string)
    ensures ExtractIngredients(content, title1) == ExtractIngredients(content, title2)
  {
  }
}

=== FILE: product_store.dfy ===
/** The product store of qdrant_manager.py: one vector collection,
    "product_ingredients", holding product records (points) with a
    384-dimension embedding and a payload of text fields.

    The storage engine is modelled as an optional collection holding a
    sequence of points. Everything outside the source's own logic is a
    parameter: the embedding model (`embed`), the id generator and the clock
    (the `id` and `timestamp` arguments), the engine's nearest-neighbour
    search (`nearest`), and any exception the engine or the model raises
    (`fault`, the exception's message when one is raised). */
module ProductStore {
  import opened Wrappers
  import opened Text
  import IngredientExtractor

  const CollectionName: string := "product_ingredients"
  /** The embedding size of all-MiniLM-L6-v2, fixed when the collection is created. */
  const EmbeddingSize: nat := 384
  /** Only the first 500 characters of a page are stored. */
  const ContentLimit: nat := 500
  /** `get_all_products` reads one page of at most 100 points. */
  const ListLimit: nat := 100
  /** The exceptions the storage engine raises on its own (their exact text is the engine's). */
  const MissingCollectionError: string := "Collection " + CollectionName + " not found"
  const VectorSizeError: string := "Wrong input: Vector dimension error"

  datatype Distance = Cosine

  type Vector = seq<real>
  type Id = string

  /** The stored payload of a product. */
  datatype Payload = Payload(
    title: string,
    url: string,
    store: string,
    ingredients: string,
    content: string,
    timestamp: string,
    productDescription: string,
    groqAnalysis: string)

  datatype Point = Point(id: Id, vector: Vector, payload: Payload)

  datatype Collection = Collection(vectorSize: nat, distance: Distance, points: seq<Point>)

  /** The engine's state as far as the core sees it: the product collection, if it exists. */
  datatype Store = Store(collection: Option<Collection>)

  /** The `product_data` dictionary of `save_product_to_qdrant`, a missing key read as "". */
  datatype ProductInput = ProductInput(
    title: string,
    url: string,
    content: string,
    store: string,
    ingredients: string,
    productDescription: string,
    groqAnalysis: string)

  function Ids(points: seq<Point>): set<Id>
  {
    set i | 0 <= i < |points| :: points[i].id
  }

  predicate UniqueIds(points: seq<Point>)
  {
    forall i, j :: 0 <= i < j < |points| ==> points[i].id != points[j].id
  }

  /** The store invariant: no two records share an id, and every vector has
      the collection's dimension, which is the embedding size. */
  predicate WellFormed(s: Store)
  {
    s.collection.Some? ==>
      && s.collection.value.vectorSize == EmbeddingSize
      && UniqueIds(s.collection.value.points)
      && forall i :: 0 <= i < |s.collection.value.points| ==>
           |s.collection.value.points[i].vector| == EmbeddingSize
  }

  function Points(s: Store): seq<Point>
  {
    if s.collection.Some? then s.collection.value.points else []
  }

  // ---------------------------------------------------------------------------
  // initialize_qdrant

  datatype InitOutcome = InitOutcome(store: Store, ok: bool)

  /** `initialize_qdrant`: create the collection (384 dimensions, cosine)
      only when it is absent; an exception is caught and reported as False. */
  function Initialize(s: Store, fault: Option<string>): (r: InitOutcome)
    ensures r.ok <==> fault.None?
    ensures r.store.collection.Some? <==> s.collection.Some? || fault.None?
    ensures s.collection.Some? || fault.Some? ==> r.store == s
    ensures s.collection.None? && fault.None? ==>
      r.store.collection == Some(Collection(EmbeddingSize, Cosine, []))
  {
    if fault.Some? then InitOutcome(s, false)
    else if s.collection.Some? then InitOutcome(s, true)
    else InitOutcome(Store(Some(Collection(EmbeddingSize, Cosine, []))), true)
  }

  /** Initializing twice is initializing once, whatever the second call meets. */
  lemma InitializeIdempotent(s: Store, fault: Option<string>)
    ensures Initialize(Initialize(s, None).store, fault).store == Initialize(s, None).store
  {
  }

  lemma InitializeKeepsWellFormed(s: Store, fault: Option<string>)
    requires WellFormed(s)
    ensures WellFormed(Initialize(s, fault).store)
  {
  }

  // ---------------------------------------------------------------------------
  // save_product_to_qdrant

  /** The engine's upsert: a point whose id is already stored replaces that
      point in place; otherwise the point is appended. */
  function Upsert(points: seq<Point>, p: Point): (r: seq<Point>)
    ensures p.id !in Ids(points) ==> r == points + [p]
    ensures p.id in Ids(points) ==> |r| == |points|
    ensures p.id in Ids(points) ==>
      forall i :: 0 <= i < |points| ==> r[i] == (if points[i].id == p.id then p else points[i])
    ensures p in r
    ensures forall i :: 0 <= i < |r| ==> r[i] in points || r[i] == p
    ensures Ids(r) == Ids(points) + {p.id}
    ensures UniqueIds(points) ==> UniqueIds(r)
  {
    if p.id in Ids(points) then
      var r := seq(|points|, i requires 0 <= i < |points| => if points[i].id == p.id then p else points[i]);
      var i :| 0 <= i < |points| && points[i].id == p.id;
      assert r[i] == p;
      assert Ids(r) == Ids(points) by {
        forall x | x in Ids(points) ensures x in Ids(r)
        {
          var k :| 0 <= k < |points| && points[k].id == x;
          assert r[k].id == x;
        }
      }
      r
    else
      var r := points + [p];
      assert r[|points|] == p;
      assert Ids(r) == Ids(points) + {p.id} by {
        forall x | x in Ids(r) ensures x in Ids(points) + {p.id}
        {
          var k :| 0 <= k < |r| && r[k].id == x;
          if k < |points| {
            assert points[k].id == x;
          }
        }
        forall x | x in Ids(points) ensures x in Ids(r)
        {
          var k :| 0 <= k < |points| && points[k].id == x;
          assert r[k].id == x;
        }
      }
      r
  }

  /** Upserting the same point twice is upserting it once. */
  lemma UpsertIdempotent(points: seq<Point>, p: Point)
    ensures Upsert(Upsert(points, p), p) == Upsert(points, p)
  {
    var once := Upsert(points, p);
    assert p.id in Ids(once);
  }

  /** The ingredients a save uses: the supplied text when it is non-empty,
      otherwise the window the extractor takes from the page content. */
  function ResolveIngredients(input: ProductInput): (r: string)
    ensures input.ingredients != "" ==> r == input.ingredients
    ensures input.ingredients == "" ==> r == IngredientExtractor.ExtractIngredients(input.content, input.title)
    ensures input.ingredients == "" ==> |r| <= IngredientExtractor.WindowLength && Contains(input.content, r)
  {
    if input.ingredients != "" then input.ingredients
    else IngredientExtractor.ExtractIngredients(input.content, input.title)
  }

  /** The text whose embedding is stored: title, a space, the ingredients. */
  function EmbeddingText(input: ProductInput): string
  {
    input.title + " " + ResolveIngredients(input)
  }

  /** The point a save writes: the embedding of the title and the resolved
      ingredients, and a payload that copies the input's fields except the
      page text, of which only the first 500 characters are kept. */
  function NewPoint(input: ProductInput, embed: string -> Vector, id: Id, timestamp: string): (p: Point)
    ensures p.id == id && p.vector == embed(input.title + " " + ResolveIngredients(input))
    ensures p.payload.title == input.title && p.payload.url == input.url && p.payload.store == input.store
    ensures p.payload.ingredients == ResolveIngredients(input)
    ensures |p.payload.content| == Min(ContentLimit, |input.content|)
    ensures p.payload.content == input.content[..|p.payload.content|]
    ensures p.payload.timestamp == timestamp
    ensures p.payload.productDescription == input.productDescription
    ensures p.payload.groqAnalysis == input.groqAnalysis
  {
    Point(id, embed(EmbeddingText(input)),
      Payload(input.title, input.url, input.store, ResolveIngredients(input),
              Take(input.content, ContentLimit), timestamp, input.productDescription, input.groqAnalysis))
  }

  /** The `(success, text)` pair of a save, with the store afterwards. */
  datatype SaveOutcome = SaveOutcome(store: Store, ok: bool, text: string)

  /** The save succeeds exactly when nothing raises, the collection exists and
      the embedding has the collection's dimension. */
  predicate SaveSucceeds(s: Store, input: ProductInput, embed: string -> Vector, fault: Option<string>)
  {
    && fault.None?
    && s.collection.Some?
    && |embed(EmbeddingText(input))| == s.collection.value.vectorSize
  }

  /** `save_product_to_qdrant`. */
  function Save(s: Store, input: ProductInput, embed: string -> Vector, id: Id, timestamp: string,
                fault: Option<string>): (r: SaveOutcome)
    ensures r.ok <==> SaveSucceeds(s, input, embed, fault)
    // a failure leaves the store alone and reports the exception's text
    ensures !r.ok ==> r.store == s
    ensures fault.Some? ==> r.text == fault.value
    // a success reports the ingredients it used and stores them with the truncated content
    ensures r.ok ==> r.text == ResolveIngredients(input)
    ensures r.ok ==>
      && r.store.collection.Some? && s.collection.Some?
      && r.store.collection.value.vectorSize == s.collection.value.vectorSize
      && NewPoint(input, embed, id, timestamp) in r.store.collection.value.points
    ensures r.ok && id !in Ids(Points(s)) ==>
      Points(r.store) == Points(s) + [NewPoint(input, embed, id, timestamp)]
  {
    if fault.Some? then SaveOutcome(s, false, fault.value)
    else if s.collection.None? then SaveOutcome(s, false, MissingCollectionError)
    else
      var c := s.collection.value;
      var point := NewPoint(input, embed, id, timestamp);
      if |point.vector| != c.vectorSize then SaveOutcome(s, false, VectorSizeError)
      else SaveOutcome(Store(Some(c.(points := Upsert(c.points, point)))), true, ResolveIngredients(input))
  }

  /** A successful save with a fresh id adds exactly one record, whose id is
      that id, whose content is the page text cut to 500 characters and whose
      ingredients are the resolved ones; every earlier record is kept as it was. */
  lemma SaveAppendsOneRecord(s: Store, input: ProductInput, embed: string -> Vector, id: Id,
                             timestamp: string, fault: Option<string>)
    requires id !in Ids(Points(s))
    requires Save(s, input, embed, id, timestamp, fault).ok
    ensures var after := Points(Save(s, input, embed, id, timestamp, fault).store);
      && |after| == |Points(s)| + 1
      && after[..|Points(s)|] == Points(s)
      && after[|Points(s)|].id == id
      && id !in Ids(Points(s))
      && after[|Points(s)|].payload.content == Take(input.content, ContentLimit)
      && |after[|Points(s)|].payload.content| <= ContentLimit
      && after[|Points(s)|].payload.ingredients == ResolveIngredients(input)
  {
  }

  /** A save keeps the store invariant. */
  lemma SaveKeepsWellFormed(s: Store, input: ProductInput, embed: string -> Vector, id: Id,
                            timestamp: string, fault: Option<string>)
    requires WellFormed(s)
    ensures WellFormed(Save(s, input, embed, id, timestamp, fault).store)
  {
    var r := Save(s, input, embed, id, timestamp, fault);
    if r.ok {
      var before := s.collection.value.points;
      var point := NewPoint(input, embed, id, timestamp);
      var after := Upsert(before, point);
      assert r.store.collection.value.points == after;
      forall i | 0 <= i < |after|
        ensures |after[i].vector| == EmbeddingSize
      {
        if after[i] != point {
          var k :| 0 <= k < |before| && before[k] == after[i];
        }
      }
    }
  }

  // ---------------------------------------------------------------------------
  // The read operations: every exception becomes an empty answer

  /** A search hit: the stored point with its similarity score. */
  datatype ScoredPoint = ScoredPoint(point: Point, score: real)

  /** `search_similar_products(query, limit)`. The engine's ranking is the
      `nearest` parameter; an exception (including a missing collection or a
      query vector of the wrong dimension) yields the empty list. */
  function SearchSimilar(s: Store, query: string, limit: nat, embed: string -> Vector,
                         nearest: (Vector, seq<Point>, nat) -> seq<ScoredPoint>,
                         fault: Option<string>): (r: seq<ScoredPoint>)
    ensures fault.Some? || s.collection.None? ==> r == []
    ensures s.collection.Some? && |embed(query)| != s.collection.value.vectorSize ==> r == []
  {
    if fault.Some? || s.collection.None? then []
    else if |embed(query)| != s.collection.value.vectorSize then []
    else nearest(embed(query), s.collection.value.points, limit)
  }

  /** `get_all_products`: one page of at most 100 stored records, or the
      empty list on an exception. */
  function ListAll(s: Store, fault: Option<string>): (r: seq<Point>)
    ensures |r| <= ListLimit
    ensures forall i :: 0 <= i < |r| ==> r[i] in Points(s)
    ensures fault.Some? || s.collection.None? ==> r == []
    ensures fault.None? && |Points(s)| <= ListLimit ==> r == Points(s)
  {
    if fault.Some? || s.collection.None? then [] else Take(s.collection.value.points, ListLimit)
  }

  /** The statistics dictionary; `None` stands for the empty dictionary. */
  datatype Stats = Stats(totalProducts: nat, vectorSize: nat, distance: Distance)

  /** `get_collection_stats`: the record count and vector configuration, or
      the empty dictionary on an exception. */
  function CollectionStats(s: Store, fault: Option<string>): (r: Option<Stats>)
    ensures r.Some? <==> fault.None? && s.collection.Some?
    ensures r.Some? ==> r.value.totalProducts == |Points(s)|
    ensures r.Some? && WellFormed(s) ==> r.value.vectorSize == EmbeddingSize
  {
    if fault.Some? || s.collection.None? then None
    else
      var c := s.collection.value;
      Some(Stats(|c.points|, c.vectorSize, c.distance))
  }
}

=== FILE: result_aggregator.dfy ===
/** `format_results_simple` of search_agent.py: attribute each search hit to
    the first selected store whose name (lower-cased, spaces removed) occurs
    in the hit's URL, analyse and save every attributed hit, count the
    successful saves, and render a report with one section per selected store.

    The analysis service is the `analyze` parameter, answering `(success,
    text)`; it, the id generator, clock and storage exceptions are indexed by
    the hit's position in the input, so two calls with the same arguments may
    answer differently. The embedding model is a plain function of its text. */
module ResultAggregator {
  import opened Wrappers
  import opened Text
  import IngredientExtractor
  import RiskClassifier
  import ProductStore

  /** A search hit: its `title`, `url` and `content` keys, each of which may be missing. */
  datatype Hit = Hit(title: Option<string>, url: Option<string>, content: Option<string>)

  /** The analysis service's answer: `success` and `analysis`. */
  datatype Reply = Reply(success: bool, analysis: string)

  /** The collaborators of one run. */
  datatype Env = Env(
    embed: string -> ProductStore.Vector,
    analyze: (nat, string, string, string) -> Reply,
    idAt: nat -> ProductStore.Id,
    clockAt: nat -> string,
    faultAt: nat -> Option<string>)

  // ---------------------------------------------------------------------------
  // Store attribution

  /** `store.lower().replace(" ", "")`. */
  function StoreDomain(name: string): string
  {
    RemoveSpaces(Lower(name))
  }

  predicate Matches(url: string, name: string)
  {
    Contains(Lower(url), StoreDomain(name))
  }

  /** `stores[i]` is the first store, in list order, that matches `url`. */
  predicate IsFirstMatch(url: string, stores: seq<string>, i: int)
  {
    && 0 <= i < |stores|
    && Matches(url, stores[i])
    && forall j :: 0 <= j < i ==> !Matches(url, stores[j])
  }

  /** The store loop with its `break`. */
  function FirstMatchingStore(url: string, stores: seq<string>): (r: Option<string>)
    ensures r.None? <==> forall i :: 0 <= i < |stores| ==> !Matches(url, stores[i])
    ensures r.Some? ==> exists i :: IsFirstMatch(url, stores, i) && stores[i] == r.value
  {
    if |stores| == 0 then None
    else if Matches(url, stores[0]) then
      assert IsFirstMatch(url, stores, 0);
      Some(stores[0])
    else
      var r := FirstMatchingStore(url, stores[1..]);
      assert forall i :: 1 <= i < |stores| ==> stores[i] == stores[1..][i - 1];
      if r.Some? then
        var i :| IsFirstMatch(url, stores[1..], i) && stores[1..][i] == r.value;
        assert IsFirstMatch(url, stores, i + 1);
        r
      else r
  }

  lemma FirstMatchUnique(url: string, stores: seq<string>)
    ensures forall i, j :: IsFirstMatch(url, stores, i) && IsFirstMatch(url, stores, j) ==> i == j
  {
  }

  /** The store a hit is filed under, if any: the first matching store, unless
      its name is empty (an empty name is falsy, so the hit is dropped). */
  function Attribute(hit: Hit, stores: seq<string>): (r: Option<string>)
    ensures r.Some? ==> r.value != "" && exists i :: IsFirstMatch(hit.url.GetOr(""), stores, i) && stores[i] == r.value
    ensures r.None? <==>
      || (forall i :: 0 <= i < |stores| ==> !Matches(hit.url.GetOr(""), stores[i]))
      || (exists i :: IsFirstMatch(hit.url.GetOr(""), stores, i) && stores[i] == "")
  {
    FirstMatchUnique(hit.url.GetOr(""), stores);
    match FirstMatchingStore(hit.url.GetOr(""), stores)
    case Some(name) => if name != "" then Some(name) else None
    case None => None
  }

  // ---------------------------------------------------------------------------
  // Reference definitions: what attribution alone decides

  /** The hits attributed to `name`, in input order. */
  function StoreHits(hits: seq<Hit>, stores: seq<string>, name: string): seq<Hit>
  {
    if |hits| == 0 then []
    else
      var last := hits[|hits| - 1];
      StoreHits(hits[..|hits| - 1], stores, name) + (if Attribute(last, stores) == Some(name) then [last] else [])
  }

  /** The number of attributed hits. */
  function AttributedCount(hits: seq<Hit>, stores: seq<string>): nat
  {
    if |hits| == 0 then 0
    else AttributedCount(hits[..|hits| - 1], stores) + (if Attribute(hits[|hits| - 1], stores).Some? then 1 else 0)
  }

  // ---------------------------------------------------------------------------
  // Processing the hits

  /** What a successful save writes back into the hit for display:
      `extracted_ingredients` and `groq_analysis`. */
  datatype Annotation = Annotation(ingredients: string, analysis: string)

  /** A hit filed under its store, annotated when its save succeeded. */
  datatype Entry = Entry(hit: Hit, annotation: Option<Annotation>)

  /** The loop state: the product store, `store_results` and `saved_count`. */
  datatype Run = Run(store: ProductStore.Store, groups: map<string, seq<Entry>>, saved: nat)

  function HitsOf(entries: seq<Entry>): (r: seq<Hit>)
    ensures |r| == |entries|
    ensures forall i :: 0 <= i < |r| ==> r[i] == entries[i].hit
  {
    seq(|entries|, i requires 0 <= i < |entries| => entries[i].hit)
  }

  /** The `product_data` saved for the hit at position `k`, filed under
      `name`: no ingredients are supplied (so the save extracts them), and the
      analysis is the service's text when it succeeded and "" when it failed. */
  function SaveInput(hit: Hit, k: nat, name: string, description: string, env: Env): (r: ProductStore.ProductInput)
    ensures r.ingredients == ""
    ensures r.store == name && r.productDescription == description
    ensures r.title == hit.title.GetOr("") && r.url == hit.url.GetOr("") && r.content == hit.content.GetOr("")
    ensures var reply := env.analyze(k, r.title, IngredientExtractor.ExtractIngredients(r.content, r.title), name);
      r.groqAnalysis == if reply.success then reply.analysis else ""
  {
    var title := hit.title.GetOr("");
    var content := hit.content.GetOr("");
    var reply := env.analyze(k, title, IngredientExtractor.ExtractIngredients(content, title), name);
    ProductStore.ProductInput(title, hit.url.GetOr(""), content, name, "", description,
                              if reply.success then reply.analysis else "")
  }

  /** The save attempted for the hit at position `k` filed under `name`. */
  function SaveHit(s: ProductStore.Store, hit: Hit, k: nat, name: string, description: string, env: Env): ProductStore.SaveOutcome
  {
    ProductStore.Save(s, SaveInput(hit, k, name, description, env), env.embed, env.idAt(k), env.clockAt(k), env.faultAt(k))
  }

  /** `after` is `before` with `entry` appended to the group of `name`, which
      is created when missing; no other group changes. */
  ghost predicate Filed(before: map<string, seq<Entry>>, after: map<string, seq<Entry>>, name: string, entry: Entry)
  {
    && after.Keys == before.Keys + {name}
    && HitsOf(after[name]) == (if name in before then HitsOf(before[name]) else []) + [entry.hit]
    && |after[name]| > 0 && after[name][|after[name]| - 1] == entry
    && forall n :: n in before && n != name ==> after[n] == before[n]
  }

  /** Files an entry under its store: the store's group is opened empty the
      first time the store is seen, and the entry is appended to it. */
  function FileEntry(groups: map<string, seq<Entry>>, name: string, entry: Entry): (g: map<string, seq<Entry>>)
    ensures Filed(groups, g, name, entry)
  {
    var group := if name in groups then groups[name] else [];
    assert HitsOf(group + [entry]) == HitsOf(group) + [entry.hit];
    groups[name := group + [entry]]
  }

  /** The entry filed for the hit at position `k` under `name`: the save's
      ingredients and the analysis are written back into the hit only when
      the save succeeded. */
  function FiledEntry(s: ProductStore.Store, hit: Hit, k: nat, name: string, description: string, env: Env): (e: Entry)
    ensures e.hit == hit
    ensures var out := SaveHit(s, hit, k, name, description, env);
      e.annotation ==
        if out.ok then Some(Annotation(out.text, SaveInput(hit, k, name, description, env).groqAnalysis)) else None
  {
    var out := SaveHit(s, hit, k, name, description, env);
    Entry(hit, if out.ok then Some(Annotation(out.text, SaveInput(hit, k, name, description, env).groqAnalysis)) else None)
  }

  /** One turn of the loop, for the hit at position `k`. An unattributed hit
      changes nothing: it is neither grouped, analysed nor saved. An
      attributed hit is appended to its store's group and saved whatever the
      analysis answered; a successful save adds one to the count. */
  function ProcessHit(run: Run, hit: Hit, k: nat, description: string, stores: seq<string>, env: Env): (r: Run)
    ensures Attribute(hit, stores).None? ==> r == run
    ensures Attribute(hit, stores).Some? ==>
      var out := SaveHit(run.store, hit, k, Attribute(hit, stores).value, description, env);
      && r.store == out.store
      && r.saved == run.saved + (if out.ok then 1 else 0)
    // the hit joins the end of its store's group, carrying the ingredients and
    // analysis only when the save succeeded; no other group changes
    ensures Attribute(hit, stores).Some? ==>
      Filed(run.groups, r.groups, Attribute(hit, stores).value,
            FiledEntry(run.store, hit, k, Attribute(hit, stores).value, description, env))
  {
    match Attribute(hit, stores)
    case None => run
    case Some(name) =>
      var out := SaveHit(run.store, hit, k, name, description, env);
      Run(out.store, FileEntry(run.groups, name, FiledEntry(run.store, hit, k, name, description, env)),
          run.saved + if out.ok then 1 else 0)
  }

  /** The loop over all hits, in input order. Groups exist only for selected
      stores with non-empty names, and each hit adds at most one save. */
  function ProcessHits(hits: seq<Hit>, description: string, stores: seq<string>,
                       s: ProductStore.Store, env: Env): (r: Run)
    ensures r.saved <= |hits|
    ensures forall name :: name in r.groups ==> name in stores && name != ""
  {
    if |hits| == 0 then Run(s, map[], 0)
    else ProcessHit(ProcessHits(hits[..|hits| - 1], description, stores, s, env),
                    hits[|hits| - 1], |hits| - 1, description, stores, env)
  }

  /** One turn files the hit under its store, if any, and touches no other group. */
  lemma GroupStep(run: Run, hit: Hit, k: nat, description: string, stores: seq<string>, env: Env, name: string)
    ensures var r := ProcessHit(run, hit, k, description, stores, env);
      && (name in r.groups <==> name in run.groups || Attribute(hit, stores) == Some(name))
      && (name in r.groups ==>
            HitsOf(r.groups[name]) ==
              (if name in run.groups then HitsOf(run.groups[name]) else [])
              + (if Attribute(hit, stores) == Some(name) then [hit] else []))
  {
  }

  /** Store `name` has a group exactly when some hit is attributed to it, and
      the group holds exactly those hits, in input order. */
  lemma {:induction false} GroupOfStore(hits: seq<Hit>, description: string, stores: seq<string>,
                                        s: ProductStore.Store, env: Env, name: string)
    ensures var run := ProcessHits(hits, description, stores, s, env);
      && (name in run.groups <==> StoreHits(hits, stores, name) != [])
      && (name in run.groups ==> HitsOf(run.groups[name]) == StoreHits(hits, stores, name))
  {
    if |hits| > 0 {
      var prefix := hits[..|hits| - 1];
      var last := hits[|hits| - 1];
      GroupOfStore(prefix, description, stores, s, env, name);
      var before := ProcessHits(prefix, description, stores, s, env);
      GroupStep(before, last, |hits| - 1, description, stores, env, name);
    }
  }

  /** Each store's group holds exactly the hits attributed to it, in input
      order, and a store has a group exactly when some hit is attributed to it. */
  lemma GroupsFollowAttribution(hits: seq<Hit>, description: string, stores: seq<string>,
                                s: ProductStore.Store, env: Env)
    ensures var run := ProcessHits(hits, description, stores, s, env);
      forall name :: (name in run.groups <==> StoreHits(hits, stores, name) != [])
    ensures var run := ProcessHits(hits, description, stores, s, env);
      forall name :: name in run.groups ==> HitsOf(run.groups[name]) == StoreHits(hits, stores, name)
  {
    forall name {
      GroupOfStore(hits, description, stores, s, env, name);
    }
  }

  /** The count of saved records never exceeds the number of attributed hits. */
  lemma {:induction false} SavedAtMostAttributed(hits: seq<Hit>, description: string, stores: seq<string>,
                                                 s: ProductStore.Store, env: Env)
    ensures ProcessHits(hits, description, stores, s, env).saved <= AttributedCount(hits, stores)
  {
    if |hits| > 0 {
      SavedAtMostAttributed(hits[..|hits| - 1], description, stores, s, env);
    }
  }

  /** Every save succeeds when nothing raises, the collection exists and every
      embedding has the collection's dimension. */
  ghost predicate SavesCannotFail(s: ProductStore.Store, env: Env)
  {
    && s.collection.Some?
    && (forall k :: env.faultAt(k).None?)
    && (forall t :: |env.embed(t)| == s.collection.value.vectorSize)
  }

  /** When no save can fail, `saved_count` is the number of attributed hits,
      and the collection survives the run with the same dimension. */
  lemma {:induction false} SavedAllAttributed(hits: seq<Hit>, description: string, stores: seq<string>,
                                              s: ProductStore.Store, env: Env)
    requires SavesCannotFail(s, env)
    ensures var run := ProcessHits(hits, description, stores, s, env);
      && run.saved == AttributedCount(hits, stores)
      && run.store.collection.Some?
      && run.store.collection.value.vectorSize == s.collection.value.vectorSize
  {
    if |hits| > 0 {
      SavedAllAttributed(hits[..|hits| - 1], description, stores, s, env);
    }
  }

  /** The ids the run may hand out for the first `n` hits. */
  function IssuedIds(env: Env, n: nat): set<ProductStore.Id>
  {
    set k | 0 <= k < n :: env.idAt(k)
  }

  /** The id source never repeats and never reuses a stored id (the model of
      `uuid4`). */
  ghost predicate FreshIds(s: ProductStore.Store, env: Env)
  {
    && (forall k1, k2 :: k1 != k2 ==> env.idAt(k1) != env.idAt(k2))
    && (forall k :: env.idAt(k) !in ProductStore.Ids(ProductStore.Points(s)))
  }

  /** With fresh ids, `saved_count` is exactly the number of records the run
      added to the store; the records already stored are kept as they were. */
  lemma {:induction false} SavedCountIsRecordsAdded(hits: seq<Hit>, description: string, stores: seq<string>,
                                                    s: ProductStore.Store, env: Env)
    requires FreshIds(s, env)
    ensures var after := ProductStore.Points(ProcessHits(hits, description, stores, s, env).store);
      && |after| == |ProductStore.Points(s)| + ProcessHits(hits, description, stores, s, env).saved
      && after[..|ProductStore.Points(s)|] == ProductStore.Points(s)
    ensures ProductStore.Ids(ProductStore.Points(ProcessHits(hits, description, stores, s, env).store))
      <= ProductStore.Ids(ProductStore.Points(s)) + IssuedIds(env, |hits|)
  {
    if |hits| > 0 {
      var prefix := hits[..|hits| - 1];
      var k := |hits| - 1;
      SavedCountIsRecordsAdded(prefix, description, stores, s, env);
      var before := ProcessHits(prefix, description, stores, s, env);
      assert IssuedIds(env, |hits|) == IssuedIds(env, k) + {env.idAt(k)};
      assert env.idAt(k) !in IssuedIds(env, k);
      FreshSaveStep(before, hits[k], k, description, stores, env);
    }
  }

  /** A turn whose id is not stored yet adds one record, behind the others,
      exactly when it counts a save, and that record has the turn's id. */
  lemma FreshSaveStep(run: Run, hit: Hit, k: nat, description: string, stores: seq<string>, env: Env)
    requires env.idAt(k) !in ProductStore.Ids(ProductStore.Points(run.store))
    ensures var after := ProcessHit(run, hit, k, description, stores, env);
      && after.saved >= run.saved
      && |ProductStore.Points(after.store)| == |ProductStore.Points(run.store)| + (after.saved - run.saved)
      && ProductStore.Points(after.store)[..|ProductStore.Points(run.store)|] == ProductStore.Points(run.store)
      && ProductStore.Ids(ProductStore.Points(after.store)) <= ProductStore.Ids(ProductStore.Points(run.store)) + {env.idAt(k)}
  {
    var id := env.idAt(k);
    var name := Attribute(hit, stores);
    if name.Some? {
      var out := SaveHit(run.store, hit, k, name.value, description, env);
      if out.ok {
        var before := ProductStore.Points(run.store);
        var point := ProductStore.NewPoint(SaveInput(hit, k, name.value, description, env),
                                           env.embed, id, env.clockAt(k));
        assert ProductStore.Points(out.store) == before + [point];
        assert ProductStore.Ids(before + [point]) == ProductStore.Ids(before) + {id} by {
          forall x | x in ProductStore.Ids(before + [point])
            ensures x in ProductStore.Ids(before) + {id}
          {
            var j :| 0 <= j < |before + [point]| && (before + [point])[j].id == x;
            if j < |before| {
              assert before[j].id == x;
            }
          }
        }
      }
    }
  }

  /** Record `p` was written for one of `hits` that is attributed: it is
      filed under that hit's store and carries its URL. */
  ghost predicate FromAttributedHit(p: ProductStore.Point, hits: seq<Hit>, stores: seq<string>)
  {
    exists h :: 0 <= h < |hits| && Attribute(hits[h], stores) == Some(p.payload.store) && p.payload.url == hits[h].url.GetOr("")
  }

  lemma FromAttributedPrefix(p: ProductStore.Point, hits: seq<Hit>, n: int, stores: seq<string>)
    requires 0 <= n <= |hits|
    requires FromAttributedHit(p, hits[..n], stores)
    ensures FromAttributedHit(p, hits, stores)
  {
    var h :| 0 <= h < n && Attribute(hits[..n][h], stores) == Some(p.payload.store) && p.payload.url == hits[..n][h].url.GetOr("");
    assert hits[..n][h] == hits[h];
  }

  /** One turn adds at most the record of its own hit, and only when the hit is attributed. */
  lemma RecordsStep(run: Run, hit: Hit, k: nat, description: string, stores: seq<string>, env: Env)
    ensures var after := ProductStore.Points(ProcessHit(run, hit, k, description, stores, env).store);
      forall i :: 0 <= i < |after| ==>
        || after[i] in ProductStore.Points(run.store)
        || (Attribute(hit, stores) == Some(after[i].payload.store) && after[i].payload.url == hit.url.GetOr(""))
  {
    var name := Attribute(hit, stores);
    if name.Some? && SaveHit(run.store, hit, k, name.value, description, env).ok {
      var point := ProductStore.NewPoint(SaveInput(hit, k, name.value, description, env),
                                         env.embed, env.idAt(k), env.clockAt(k));
      var previous := ProductStore.Points(run.store);
      var after := ProductStore.Points(ProcessHit(run, hit, k, description, stores, env).store);
      assert after == ProductStore.Upsert(previous, point);
    }
  }

  /** Every record of `after` was already in `base` or comes from an attributed hit. */
  ghost predicate RecordsTraced(after: seq<ProductStore.Point>, base: seq<ProductStore.Point>,
                                hits: seq<Hit>, stores: seq<string>)
  {
    forall i :: 0 <= i < |after| ==> after[i] in base || FromAttributedHit(after[i], hits, stores)
  }

  /** Chains one turn onto the records of the turns before it. */
  lemma CombineRecords(base: seq<ProductStore.Point>, previous: seq<ProductStore.Point>,
                       after: seq<ProductStore.Point>, hits: seq<Hit>, stores: seq<string>)
    requires |hits| > 0
    requires RecordsTraced(previous, base, hits[..|hits| - 1], stores)
    requires var hit := hits[|hits| - 1];
      forall i :: 0 <= i < |after| ==>
        || after[i] in previous
        || (Attribute(hit, stores) == Some(after[i].payload.store) && after[i].payload.url == hit.url.GetOr(""))
    ensures RecordsTraced(after, base, hits, stores)
  {
    var k := |hits| - 1;
    forall i | 0 <= i < |after| && after[i] !in base
      ensures FromAttributedHit(after[i], hits, stores)
    {
      var p := after[i];
      if p in previous {
        var j :| 0 <= j < |previous| && previous[j] == p;
        FromAttributedPrefix(p, hits, k, stores);
      } else {
        assert Attribute(hits[k], stores) == Some(p.payload.store) && p.payload.url == hits[k].url.GetOr("");
      }
    }
  }

  /** Every record the run added comes from an attributed hit: unattributed
      hits are never saved. */
  lemma {:induction false} AddedRecordsAreAttributed(hits: seq<Hit>, description: string, stores: seq<string>,
                                                     s: ProductStore.Store, env: Env)
    ensures RecordsTraced(ProductStore.Points(ProcessHits(hits, description, stores, s, env).store),
                          ProductStore.Points(s), hits, stores)
  {
    if |hits| > 0 {
      var k := |hits| - 1;
      var prefix := hits[..k];
      AddedRecordsAreAttributed(prefix, description, stores, s, env);
      var before := ProcessHits(prefix, description, stores, s, env);
      var run := ProcessHits(hits, description, stores, s, env);
      assert run == ProcessHit(before, hits[k], k, description, stores, env);
      RecordsStep(before, hits[k], k, description, stores, env);
      CombineRecords(ProductStore.Points(s), ProductStore.Points(before.store),
                     ProductStore.Points(run.store), hits, stores);
    }
  }

  // ---------------------------------------------------------------------------
  // The report

  /** How a hit is shown: with its risk verdict and the full analysis when
      one was stored, else its extracted ingredients, else a content snippet. */
  datatype Display =
    | Rated(verdict: RiskClassifier.Verdict, analysis: string)
    | Details(ingredients: string)
    | Snippet(text: string)

  datatype Item = Item(title: string, link: string, display: Display)

  datatype SectionBody = Found(items: seq<Item>) | NoResults

  datatype Section = Section(store: string, body: SectionBody)

  datatype Report = Report(description: string, saved: nat, sections: seq<Section>)

  const SnippetLength: nat := 200

  /** The display of one filed hit. Only a successful save leaves the
      ingredients and analysis on the hit, so a hit whose save failed shows
      its content snippet. */
  function ItemOf(e: Entry): (r: Item)
    ensures r.title == e.hit.title.GetOr("No title") && r.link == e.hit.url.GetOr("#")
    // the verdict and the full analysis exactly when a non-empty analysis was stored
    ensures r.display.Rated? <==> e.annotation.Some? && e.annotation.value.analysis != ""
    ensures r.display.Rated? ==>
      && r.display.analysis == e.annotation.value.analysis
      && r.display.verdict == RiskClassifier.Classify(r.display.analysis)
    // otherwise the stored ingredients, when there are any
    ensures r.display.Details? <==>
      e.annotation.Some? && e.annotation.value.analysis == "" && e.annotation.value.ingredients != ""
    ensures r.display.Details? ==> r.display.ingredients == e.annotation.value.ingredients
    // otherwise the first 200 characters of the content
    ensures e.annotation.None? ==> r.display.Snippet?
    ensures r.display.Snippet? ==>
      && r.display.text == Take(e.hit.content.GetOr("No description available"), SnippetLength)
      && |r.display.text| <= SnippetLength
  {
    var title := e.hit.title.GetOr("No title");
    var link := e.hit.url.GetOr("#");
    var content := e.hit.content.GetOr("No description available");
    var ingredients := if e.annotation.Some? then e.annotation.value.ingredients else "";
    var analysis := if e.annotation.Some? then e.annotation.value.analysis else "";
    var display :=
      if analysis != "" then Rated(RiskClassifier.Classify(analysis), analysis)
      else if ingredients != "" then Details(ingredients)
      else Snippet(Take(content, SnippetLength));
    Item(title, link, display)
  }

  function Items(entries: seq<Entry>): (r: seq<Item>)
    ensures |r| == |entries|
    ensures forall i :: 0 <= i < |r| ==> r[i] == ItemOf(entries[i])
  {
    seq(|entries|, i requires 0 <= i < |entries| => ItemOf(entries[i]))
  }

  /** One section per selected store, in the order of `stores`. */
  function BuildReport(run: Run, description: string, stores: seq<string>): (r: Report)
    ensures r.saved == run.saved && r.description == description
    ensures |r.sections| == |stores|
    ensures forall i :: 0 <= i < |stores| ==> r.sections[i].store == stores[i]
    ensures forall i :: 0 <= i < |stores| ==> (r.sections[i].body.NoResults? <==> stores[i] !in run.groups)
    ensures forall i :: 0 <= i < |stores| && stores[i] in run.groups ==>
      r.sections[i].body == Found(Items(run.groups[stores[i]]))
  {
    var sections := seq(|stores|, i requires 0 <= i < |stores| =>
      Section(stores[i], if stores[i] in run.groups then Found(Items(run.groups[stores[i]])) else NoResults));
    Report(description, run.saved, sections)
  }

  // ---------------------------------------------------------------------------
  // Rendering

  const NoProductsOpening: string := "No products found for '"

  /** The explanation returned when the search found nothing. It names the
      product and, unlike a report, does not open with a "#" heading. */
  function NoProductsMessage(description: string): (r: string)
    ensures StartsWith(r, NoProductsOpening + description + "'")
    ensures |r| > 0 && r[0] != '#'
  {
    var opening := NoProductsOpening + description + "'";
    PrefixOccurs(opening, NoProductsAdvice);
    assert (opening + NoProductsAdvice)[0] == NoProductsOpening[0] == 'N';
    opening + NoProductsAdvice
  }

  const NoProductsAdvice: string := " in the selected stores. Try:\n"
    + "- Using a different product name\n- Selecting different stores\n- Making your search more specific"

  /** One line of the flagged-ingredients list. */
  function Bullet(item: string): string
  {
    "- " + item + "\n"
  }

  function RenderBullets(list: seq<string>): string
  {
    ConcatMap(list, Bullet)
  }

  /** The bullets appear in list order: bullet `i` sits right after the ones before it. */
  lemma BulletInOrder(list: seq<string>, i: int)
    requires 0 <= i < |list|
    ensures RenderBullets(list) == RenderBullets(list[..i]) + Bullet(list[i]) + RenderBullets(list[i + 1..])
  {
    ConcatMapSplit(list, Bullet, i);
  }

  /** The risk line that opens a rated hit: badge and level name. */
  function SafetyLine(v: RiskClassifier.Verdict): string
  {
    "**Safety Rating:** " + RiskClassifier.RiskEmoji(v.riskLevel.Name()) + " " + v.riskLevel.Name() + "\n\n"
  }

  const HarmfulHeading: string := "**\U{26A0}\U{FE0F} HARMFUL INGREDIENTS DETECTED:**\n"
  const NoHarmLine: string := "**\U{2705} No harmful ingredients detected**\n\n"
  const AnalysisHeading: string := "**\U{1F916} Full AI Analysis:**\n"

  /** The block after the risk line: the flagged list under a warning heading
      for a harmful verdict, else the all-clear line. */
  function VerdictBlock(v: RiskClassifier.Verdict): string
  {
    if v.hasHarmful then HarmfulHeading + RenderBullets(v.harmfulList) + "\n" else NoHarmLine
  }

  /** How a hit's details are shown. A rated hit opens with its risk line,
      follows with the verdict block and ends with the full analysis. */
  function RenderDisplay(d: Display): (r: string)
    ensures d.Rated? ==> StartsWith(r, SafetyLine(d.verdict))
    ensures d.Rated? ==> OccursAt(r, VerdictBlock(d.verdict), |SafetyLine(d.verdict)|)
    ensures d.Rated? ==> EndsWith(r, AnalysisHeading + d.analysis + "\n\n")
    ensures d.Rated? ==>
      |r| == |SafetyLine(d.verdict)| + |VerdictBlock(d.verdict)| + |AnalysisHeading + d.analysis + "\n\n"|
    ensures d.Details? ==> r == "**Ingredients/Details:** " + d.ingredients + "\n\n"
    ensures d.Snippet? ==> StartsWith(r, d.text) && EndsWith(r, "...\n\n") && |r| == |d.text| + 5
  {
    match d
    case Rated(v, analysis) =>
      var head := SafetyLine(v);
      var block := VerdictBlock(v);
      var tail := AnalysisHeading + analysis + "\n\n";
      PieceOccurs(head, block, tail);
      PrefixOccurs(head, block + tail);
      SuffixOccurs(head + block, tail);
      assert head + block + tail == head + (block + tail);
      head + block + tail
    case Details(ingredients) => "**Ingredients/Details:** " + ingredients + "\n\n"
    case Snippet(text) =>
      PrefixOccurs(text, "...\n\n");
      SuffixOccurs(text, "...\n\n");
      text + "...\n\n"
  }

  /** Every flagged ingredient of a harmful verdict is shown as a bullet of its own. */
  lemma FlaggedItemShown(d: Display, i: int)
    requires d.Rated? && d.verdict.hasHarmful
    requires 0 <= i < |d.verdict.harmfulList|
    ensures Contains(RenderDisplay(d), Bullet(d.verdict.harmfulList[i]))
  {
    var list := d.verdict.harmfulList;
    var bullets := RenderBullets(list);
    BulletInOrder(list, i);
    PieceOccurs(RenderBullets(list[..i]), Bullet(list[i]), RenderBullets(list[i + 1..]));
    PieceOccurs(HarmfulHeading, bullets, "\n");
    ContainsTransitive(VerdictBlock(d.verdict), bullets, Bullet(list[i]));
    ContainsTransitive(RenderDisplay(d), VerdictBlock(d.verdict), Bullet(list[i]));
  }

  function LinkLine(link: string): string
  {
    "\U{1F517} [View Product](" + link + ")\n\n"
  }

  /** One hit: its title heading, its link line right after it, its details,
      and the `---` rule that closes it. */
  function RenderItem(item: Item): (r: string)
    ensures StartsWith(r, "### " + item.title + "\n")
    ensures OccursAt(r, LinkLine(item.link), |"### " + item.title + "\n"|)
    ensures EndsWith(r, RenderDisplay(item.display) + "---\n\n")
    ensures |r| == |"### " + item.title + "\n"| + |LinkLine(item.link)| + |RenderDisplay(item.display) + "---\n\n"|
  {
    var head := "### " + item.title + "\n";
    var link := LinkLine(item.link);
    var tail := RenderDisplay(item.display) + "---\n\n";
    PieceOccurs(head, link, tail);
    PrefixOccurs(head, link + tail);
    SuffixOccurs(head + link, tail);
    assert head + link + tail == head + (link + tail);
    head + link + tail
  }

  function RenderItems(items: seq<Item>): string
  {
    ConcatMap(items, RenderItem)
  }

  /** Within a section the hits appear in group order. */
  lemma ItemTextInOrder(items: seq<Item>, i: int)
    requires 0 <= i < |items|
    ensures RenderItems(items) == RenderItems(items[..i]) + RenderItem(items[i]) + RenderItems(items[i + 1..])
  {
    ConcatMapSplit(items, RenderItem, i);
  }

  function NoResultsLine(name: string): string
  {
    "\U{274C} No results found at " + name + "\n\n"
  }

  /** A section's text opens with its "## store" heading; an empty one holds
      only the no-results line. */
  function RenderSection(section: Section): (r: string)
    ensures StartsWith(r, "## " + section.store + "\n\n")
    ensures section.body.NoResults? ==> r == "## " + section.store + "\n\n" + NoResultsLine(section.store)
    ensures section.body.Found? ==> r == "## " + section.store + "\n\n" + RenderItems(section.body.items)
  {
    var heading := "## " + section.store + "\n\n";
    var r := heading + match section.body
      case Found(items) => RenderItems(items)
      case NoResults => NoResultsLine(section.store);
    assert r[..|heading|] == heading;
    r
  }

  function RenderSections(sections: seq<Section>): string
  {
    ConcatMap(sections, RenderSection)
  }

  /** In the report text the sections follow one another in list order: the
      i-th section's text sits right after the text of the sections before it. */
  lemma SectionTextInOrder(sections: seq<Section>, i: int)
    requires 0 <= i < |sections|
    ensures RenderSections(sections) ==
      RenderSections(sections[..i]) + RenderSection(sections[i]) + RenderSections(sections[i + 1..])
  {
    ConcatMapSplit(sections, RenderSection, i);
  }

  function ReportHeading(description: string): string
  {
    "# Search Results for: " + description + "\n\n"
  }

  function SavedLine(saved: nat): string
  {
    "\U{1F4BE} **Saved " + NatToString(saved) + " products to database**\n\n"
  }

  /** The report: its heading, the saved-count line right after it, then the
      sections. */
  function RenderReport(report: Report): (r: string)
    ensures StartsWith(r, ReportHeading(report.description))
    ensures OccursAt(r, SavedLine(report.saved), |ReportHeading(report.description)|)
    ensures EndsWith(r, RenderSections(report.sections))
    ensures |r| == |ReportHeading(report.description)| + |SavedLine(report.saved)| + |RenderSections(report.sections)|
  {
    var head := ReportHeading(report.description);
    var saved := SavedLine(report.saved);
    var tail := RenderSections(report.sections);
    PieceOccurs(head, saved, tail);
    PrefixOccurs(head, saved + tail);
    SuffixOccurs(head + saved, tail);
    assert head + saved + tail == head + (saved + tail);
    head + saved + tail
  }

  /** The digits on the report's saved line, right after its heading, spell
      the saved count. */
  lemma ReportShowsSavedCount(report: Report)
    ensures exists digits ::
      && DecimalValue(digits) == report.saved
      && OccursAt(RenderReport(report), "\U{1F4BE} **Saved " + digits + " products to database**\n\n",
                  |ReportHeading(report.description)|)
  {
    var digits := NatToString(report.saved);
    assert SavedLine(report.saved) == "\U{1F4BE} **Saved " + digits + " products to database**\n\n";
  }

  // ---------------------------------------------------------------------------
  // format_results_simple

  /** The returned text, with the structured report it renders, the product
      store afterwards and `saved_count`. */
  datatype Outcome = Outcome(text: string, report: Option<Report>, store: ProductStore.Store, saved: nat)

  /** The report has one section per selected store, in order; "no results"
      exactly for the stores no hit is attributed to; and a store's section
      lists the titles and links of its hits in input order. */
  ghost predicate SectionsFollowHits(report: Report, hits: seq<Hit>, stores: seq<string>)
  {
    && |report.sections| == |stores|
    && (forall i :: 0 <= i < |stores| ==>
          && report.sections[i].store == stores[i]
          && (report.sections[i].body.NoResults? <==> StoreHits(hits, stores, stores[i]) == []))
    && (forall i :: 0 <= i < |stores| && report.sections[i].body.Found? ==>
          var items := report.sections[i].body.items;
          var mine := StoreHits(hits, stores, stores[i]);
          && |items| == |mine|
          && forall j :: 0 <= j < |items| ==>
               items[j].title == mine[j].title.GetOr("No title") && items[j].link == mine[j].url.GetOr("#"))
  }

  /** The report built after the loop follows the attribution of the hits. */
  lemma ReportFollowsHits(hits: seq<Hit>, description: string, stores: seq<string>,
                          s: ProductStore.Store, env: Env)
    ensures SectionsFollowHits(BuildReport(ProcessHits(hits, description, stores, s, env), description, stores),
                               hits, stores)
  {
    var run := ProcessHits(hits, description, stores, s, env);
    GroupsFollowAttribution(hits, description, stores, s, env);
    assert forall i :: 0 <= i < |stores| && stores[i] in run.groups ==>
      HitsOf(run.groups[stores[i]]) == StoreHits(hits, stores, stores[i]);
  }

  /** The saved count under each of the two environment assumptions. */
  lemma SavedCountUnderAssumptions(hits: seq<Hit>, description: string, stores: seq<string>,
                                   s: ProductStore.Store, env: Env)
    ensures var run := ProcessHits(hits, description, stores, s, env);
      SavesCannotFail(s, env) ==> run.saved == AttributedCount(hits, stores)
    ensures var run := ProcessHits(hits, description, stores, s, env);
      FreshIds(s, env) ==>
        && |ProductStore.Points(run.store)| == |ProductStore.Points(s)| + run.saved
        && ProductStore.Points(run.store)[..|ProductStore.Points(s)|] == ProductStore.Points(s)
  {
    if SavesCannotFail(s, env) {
      SavedAllAttributed(hits, description, stores, s, env);
    }
    if FreshIds(s, env) {
      SavedCountIsRecordsAdded(hits, description, stores, s, env);
    }
  }

  /** `format_results_simple(search_results, product_description, stores)`. */
  function FormatResults(hits: seq<Hit>, description: string, stores: seq<string>,
                         s: ProductStore.Store, env: Env): (r: Outcome)
    // no hits: the explanatory message, and nothing is saved
    ensures |hits| == 0 ==> r == Outcome(NoProductsMessage(description), None, s, 0)
    ensures |hits| > 0 ==> r.report.Some? && r.text == RenderReport(r.report.value) && r.report.value.saved == r.saved
    ensures r.report.Some? ==> SectionsFollowHits(r.report.value, hits, stores)
    // `saved_count` counts the successful saves: at most one per attributed
    // hit, one per attributed hit when no save can fail, and, with fresh ids,
    // exactly the records added behind the ones already stored
    ensures r.saved <= AttributedCount(hits, stores)
    ensures SavesCannotFail(s, env) ==> r.saved == AttributedCount(hits, stores)
    ensures FreshIds(s, env) ==>
      && |ProductStore.Points(r.store)| == |ProductStore.Points(s)| + r.saved
      && ProductStore.Points(r.store)[..|ProductStore.Points(s)|] == ProductStore.Points(s)
    // and every record added belongs to an attributed hit
    ensures RecordsTraced(ProductStore.Points(r.store), ProductStore.Points(s), hits, stores)
  {
    if |hits| == 0 then Outcome(NoProductsMessage(description), None, s, 0)
    else
      var run := ProcessHits(hits, description, stores, s, env);
      ReportFollowsHits(hits, description, stores, s, env);
      SavedAtMostAttributed(hits, description, stores, s, env);
      AddedRecordsAreAttributed(hits, description, stores, s, env);
      SavedCountUnderAssumptions(hits, description, stores, s, env);
      var report := BuildReport(run, description, stores);
      Outcome(RenderReport(report), Some(report), run.store, run.saved)
  }
}

=== FILE: risk_classifier.dfy ===
/** The rule-based risk classifier of ingredient_analyzer.py: it turns a
    language model's free-text safety analysis into a verdict (risk level,
    flagged lines, excerpt of the "harmful ingredients" section) by keyword
    precedence, and maps a risk level to its badge glyph. */
module RiskClassifier {
  import opened Text

  datatype RiskLevel = Safe | Low | Moderate | High | Unknown {

    /** The level as the source spells it in the verdict's `risk_level`. */
    function Name(): string
    {
      match this
      case Safe => "SAFE"
      case Low => "LOW"
      case Moderate => "MODERATE"
      case High => "HIGH"
      case Unknown => "UNKNOWN"
    }

    predicate IsHarmful()
    {
      this == High || this == Moderate
    }
  }

  /** The verdict dictionary: `has_harmful`, `harmful_list`, `risk_level`, `harmful_section`. */
  datatype Verdict = Verdict(hasHarmful: bool, harmfulList: seq<string>, riskLevel: RiskLevel, harmfulSection: string)

  const SafeGlyph: string := "\U{2705}"
  const WarningGlyph: string := "\U{26A0}\U{FE0F}"
  /** A line holding one of these (lower-cased) opens the harmful section. */
  const SectionStartKeywords: seq<string> := ["harmful", "concerning ingredients", "risk"]
  /** A heading holding one of these (lower-cased) does not close the section. */
  const SectionKeepKeywords: seq<string> := ["harmful", "concerning", "risk"]
  /** Words that make an otherwise unmarked analysis MODERATE. */
  const CautionKeywords: seq<string> := ["avoid", "warning", "concerning", "harmful", "toxic", "dangerous"]
  const MaxFlagged: nat := 5
  const MaxSectionLength: nat := 500

  /** `any(k in s for k in keys)`. */
  function ContainsAny(s: string, keys: seq<string>): (b: bool)
    ensures b <==> exists k :: 0 <= k < |keys| && Contains(s, keys[k])
  {
    if |keys| == 0 then false else Contains(s, keys[0]) || ContainsAny(s, keys[1..])
  }

  // ---------------------------------------------------------------------------
  // The harmful-section scanner

  predicate StartsSection(line: string)
  {
    ContainsAny(Lower(line), SectionStartKeywords)
  }

  /** A new section heading: the stripped line starts with "##", or starts
      with "**" while the line holds a colon. */
  predicate IsHeading(line: string)
  {
    var t := Strip(line);
    StartsWith(t, "##") || (StartsWith(t, "**") && Contains(line, ":"))
  }

  /** A heading that mentions none of harmful / concerning / risk ends the section. */
  predicate EndsSection(line: string)
  {
    IsHeading(line) && !ContainsAny(Lower(line), SectionKeepKeywords)
  }

  /** A line that opens the section can never close it. */
  lemma StartNeverEnds(line: string)
    requires StartsSection(line)
    ensures !EndsSection(line)
  {
    var low := Lower(line);
    var k :| 0 <= k < |SectionStartKeywords| && Contains(low, SectionStartKeywords[k]);
    if k == 1 {
      assert OccursAt("concerning ingredients", "concerning", 0);
      ContainsTransitive(low, "concerning ingredients", "concerning");
      assert Contains(low, SectionKeepKeywords[1]);
    } else {
      assert Contains(low, SectionKeepKeywords[k]);
    }
  }

  /** The line loop of the source, for any opening and closing tests: lines
      before the first opening line are skipped; inside the section every line
      is kept until a closing line, which is dropped and stops the scan. */
  function ScanSection(lines: seq<string>, inSection: bool, opens: string -> bool, closes: string -> bool): (r: seq<string>)
    ensures |r| <= |lines|
    ensures forall i :: 0 <= i < |r| ==> r[i] in lines
  {
    if |lines| == 0 then []
    else if opens(lines[0]) then [lines[0]] + ScanSection(lines[1..], true, opens, closes)
    else if inSection then
      if closes(lines[0]) then [] else [lines[0]] + ScanSection(lines[1..], true, opens, closes)
    else ScanSection(lines[1..], false, opens, closes)
  }

  /** `s` is the first line that opens the section. */
  predicate IsFirstStart(lines: seq<string>, s: int, opens: string -> bool)
  {
    && 0 <= s < |lines|
    && opens(lines[s])
    && forall k :: 0 <= k < s ==> !opens(lines[k])
  }

  /** `e` is the first closing line after `s`, or the end of the text. */
  predicate IsSectionEnd(lines: seq<string>, s: int, e: int, closes: string -> bool)
  {
    && 0 <= s < e <= |lines|
    && (e == |lines| || closes(lines[e]))
    && forall k :: s < k < e ==> !closes(lines[k])
  }

  /** Once inside the section, the scan keeps exactly the lines before the
      first closing line, provided no line both opens and closes. */
  lemma {:induction false} ScanWithinSection(lines: seq<string>, e: int, opens: string -> bool, closes: string -> bool)
    requires forall line :: opens(line) ==> !closes(line)
    requires 0 <= e <= |lines|
    requires e == |lines| || closes(lines[e])
    requires forall k :: 0 <= k < e ==> !closes(lines[k])
    ensures ScanSection(lines, true, opens, closes) == lines[..e]
  {
    if |lines| > 0 && !closes(lines[0]) {
      ScanWithinSection(lines[1..], e - 1, opens, closes);
      assert lines[..e] == [lines[0]] + lines[1..][..e - 1];
    }
  }

  /** The scan yields the lines from the first opening line up to, not
      including, the first closing line after it. */
  lemma {:induction false} ScanFindsSection(lines: seq<string>, s: int, e: int, opens: string -> bool, closes: string -> bool)
    requires forall line :: opens(line) ==> !closes(line)
    requires IsFirstStart(lines, s, opens)
    requires IsSectionEnd(lines, s, e, closes)
    ensures ScanSection(lines, false, opens, closes) == lines[s..e]
  {
    if s == 0 {
      ScanWithinSection(lines[1..], e - 1, opens, closes);
      assert lines[..e] == [lines[0]] + lines[1..][..e - 1];
    } else {
      ScanFindsSection(lines[1..], s - 1, e - 1, opens, closes);
      assert lines[1..][s - 1..e - 1] == lines[s..e];
    }
  }

  /** Without an opening line the section is empty. */
  lemma {:induction false} ScanWithoutStart(lines: seq<string>, opens: string -> bool, closes: string -> bool)
    requires forall k :: 0 <= k < |lines| ==> !opens(lines[k])
    ensures ScanSection(lines, false, opens, closes) == []
  {
    if |lines| > 0 {
      ScanWithoutStart(lines[1..], opens, closes);
    }
  }

  /** The lower-cased analysis mentions "harmful" or "concerning": only then is a section sought. */
  predicate MentionsHarm(analysis: string)
  {
    Contains(Lower(analysis), "harmful") || Contains(Lower(analysis), "concerning")
  }

  /** The lines of the harmful section (`harmful_lines`). */
  function SectionLines(analysis: string): (r: seq<string>)
    ensures r != [] ==> MentionsHarm(analysis)
    ensures |r| <= |SplitLines(analysis)|
    ensures forall i :: 0 <= i < |r| ==> r[i] in SplitLines(analysis)
  {
    if MentionsHarm(analysis) then ScanSection(SplitLines(analysis), false, StartsSection, EndsSection) else []
  }

  // ---------------------------------------------------------------------------
  // Level markers and flagged lines

  predicate SafeMarked(analysis: string)
  {
    Contains(Lower(analysis), "no harmful") || Contains(Lower(analysis), "no concerning") || Contains(analysis, SafeGlyph)
  }

  predicate HighMarked(analysis: string)
  {
    Contains(Lower(analysis), "high risk")
  }

  predicate ModerateMarked(analysis: string)
  {
    Contains(Lower(analysis), "moderate risk") || Contains(analysis, WarningGlyph)
  }

  predicate CautionMarked(analysis: string)
  {
    ContainsAny(Lower(analysis), CautionKeywords)
  }

  /** Any text holding "moderate risk" holds "risk". */
  lemma RiskWithinModerateRisk(s: string)
    ensures Contains(s, "moderate risk") ==> Contains(s, "risk")
  {
    assert OccursAt("moderate risk", "risk", 9);
    if Contains(s, "moderate risk") {
      ContainsTransitive(s, "moderate risk", "risk");
    }
  }

  /** The test a section line must pass to be flagged at `level`. Only the
      two harmful levels flag anything, and at MODERATE the "moderate risk"
      alternative adds nothing to the plain "risk" test. */
  predicate Flags(level: RiskLevel, line: string): (b: bool)
    ensures b ==> level == High || level == Moderate
    ensures level == Moderate ==> (b <==> Contains(Lower(line), "risk"))
  {
    match level
    case High => Contains(Lower(line), "high risk") || Contains(line, WarningGlyph)
    case Moderate =>
      RiskWithinModerateRisk(Lower(line));
      Contains(Lower(line), "moderate risk") || Contains(Lower(line), "risk")
    case _ => false
  }

  /** The lines that pass the flag test `flags`, in order. */
  function CollectFlagged(lines: seq<string>, flags: string -> bool): (r: seq<string>)
    ensures |r| <= |lines|
    ensures forall i :: 0 <= i < |r| ==> r[i] in lines && flags(r[i])
    ensures forall k :: 0 <= k < |lines| && flags(lines[k]) ==> lines[k] in r
  {
    if |lines| == 0 then []
    else
      var rest := CollectFlagged(lines[1..], flags);
      assert forall k :: 1 <= k < |lines| ==> lines[k] == lines[1..][k - 1];
      if flags(lines[0]) then [lines[0]] + rest else rest
  }

  /** The filter keeps order and multiplicity: filtering a concatenation is
      concatenating the filtered parts. */
  lemma {:induction false} CollectFlaggedAppend(a: seq<string>, b: seq<string>, flags: string -> bool)
    ensures CollectFlagged(a + b, flags) == CollectFlagged(a, flags) + CollectFlagged(b, flags)
  {
    if |a| == 0 {
      assert a + b == b;
    } else {
      var ab := a + b;
      var head := if flags(a[0]) then [a[0]] else [];
      assert ab[0] == a[0];
      assert ab[1..] == a[1..] + b;
      CollectFlaggedAppend(a[1..], b, flags);
      assert CollectFlagged(ab, flags) == head + CollectFlagged(a[1..] + b, flags);
      assert CollectFlagged(a, flags) == head + CollectFlagged(a[1..], flags);
    }
  }

  /** A single line is kept exactly when it passes the test. */
  lemma CollectFlaggedOne(line: string, flags: string -> bool)
    ensures CollectFlagged([line], flags) == if flags(line) then [line] else []
  {
  }

  /** `[line.strip() for line in lines]`. */
  function StripAll(lines: seq<string>): (r: seq<string>)
    ensures |r| == |lines|
    ensures forall i :: 0 <= i < |r| ==> r[i] == Strip(lines[i])
  {
    seq(|lines|, i requires 0 <= i < |lines| => Strip(lines[i]))
  }

  // ---------------------------------------------------------------------------
  // The classifier

  /** `extract_harmful_ingredients`. */
  function Classify(analysis: string): (v: Verdict)
    // an empty (or absent) analysis is UNKNOWN before anything else is looked at
    ensures analysis == "" ==> v == Verdict(false, [], Unknown, "")
    ensures analysis != "" ==> v.riskLevel != Unknown
    ensures v.hasHarmful <==> v.riskLevel.IsHarmful()
    // the precedence of the markers, first match wins
    ensures analysis != "" ==> (v.riskLevel == Safe <==> SafeMarked(analysis))
    ensures analysis != "" ==> (v.riskLevel == High <==> !SafeMarked(analysis) && HighMarked(analysis))
    ensures analysis != "" ==> (v.riskLevel == Low <==>
      !SafeMarked(analysis) && !HighMarked(analysis) && !ModerateMarked(analysis) && !CautionMarked(analysis))
    // bounds
    ensures |v.harmfulList| <= MaxFlagged
    ensures |v.harmfulSection| <= MaxSectionLength
    // only harmful verdicts flag lines, and only a text mentioning harm has a section
    ensures v.harmfulList != [] ==> v.hasHarmful
    // a MODERATE verdict reached only through the caution words flags nothing
    ensures analysis != "" && !SafeMarked(analysis) && !HighMarked(analysis) && !ModerateMarked(analysis) ==>
      v.harmfulList == []
    ensures v.harmfulSection != "" ==> MentionsHarm(analysis)
    ensures v.harmfulSection == Take(JoinLines(SectionLines(analysis)), MaxSectionLength)
  {
    if analysis == "" then Verdict(false, [], Unknown, "")
    else
      var section := JoinLines(SectionLines(analysis));
      var excerpt := Take(section, MaxSectionLength);
      var lines := SplitLines(section);
      if SafeMarked(analysis) then Verdict(false, [], Safe, excerpt)
      else if HighMarked(analysis) then Verdict(true, Take(StripAll(CollectFlagged(lines, line => Flags(High, line))), MaxFlagged), High, excerpt)
      else if ModerateMarked(analysis) then Verdict(true, Take(StripAll(CollectFlagged(lines, line => Flags(Moderate, line))), MaxFlagged), Moderate, excerpt)
      else if CautionMarked(analysis) then Verdict(true, [], Moderate, excerpt)
      else Verdict(false, [], Low, excerpt)
  }

  /** `item` is the stripped form of a line of `lines` that passes the flag test of `level`. */
  ghost predicate StrippedLine(item: string, lines: seq<string>, level: RiskLevel)
  {
    exists line :: line in lines && item == Strip(line) && Flags(level, line)
  }

  /** Each of `items` is the stripped form of a line of `lines` that passes the flag test of `level`. */
  ghost predicate StrippedFrom(items: seq<string>, lines: seq<string>, level: RiskLevel)
  {
    forall i :: 0 <= i < |items| ==> StrippedLine(items[i], lines, level)
  }

  /** The first `n` stripped lines that pass the flag test of `level` are each the stripped form of such a line. */
  lemma StrippedFlaggedFrom(lines: seq<string>, level: RiskLevel, n: nat)
    ensures StrippedFrom(Take(StripAll(CollectFlagged(lines, line => Flags(level, line))), n), lines, level)
  {
    var flagged := CollectFlagged(lines, line => Flags(level, line));
    var items := Take(StripAll(flagged), n);
    forall i | 0 <= i < |items|
      ensures StrippedLine(items[i], lines, level)
    {
      var line := flagged[i];
      assert items[i] == StripAll(flagged)[i] == Strip(line);
      assert line in lines && Flags(level, line);
    }
  }

  /** The section lines hold no line break, so re-splitting their join gives them back. */
  lemma SectionResplits(analysis: string)
    requires |SectionLines(analysis)| > 0
    ensures SplitLines(JoinLines(SectionLines(analysis))) == SectionLines(analysis)
  {
    var lines := SectionLines(analysis);
    var all := SplitLines(analysis);
    forall k | 0 <= k < |lines|
      ensures '\n' !in lines[k]
    {
      var j :| 0 <= j < |all| && all[j] == lines[k];
    }
    SplitJoinLines(lines);
  }

  /** A HIGH verdict, and a MODERATE one reached through a moderate marker,
      lists the flag filter of its level over the section lines. */
  lemma HarmfulListIsFiltered(analysis: string)
    requires |SectionLines(analysis)| > 0
    ensures var v := Classify(analysis);
      v.riskLevel == High ==>
        v.harmfulList == Take(StripAll(CollectFlagged(SectionLines(analysis), line => Flags(High, line))), MaxFlagged)
    ensures var v := Classify(analysis);
      v.riskLevel == Moderate && ModerateMarked(analysis) ==>
        v.harmfulList == Take(StripAll(CollectFlagged(SectionLines(analysis), line => Flags(Moderate, line))), MaxFlagged)
  {
    SectionResplits(analysis);
  }

  /** Without section lines nothing is flagged: the flag tests see only the empty line. */
  lemma NoSectionNoItems(analysis: string)
    requires SectionLines(analysis) == []
    ensures Classify(analysis).harmfulList == []
  {
    assert SplitLines(JoinLines(SectionLines(analysis))) == [""];
    assert !Flags(High, "") && !Flags(Moderate, "");
  }

  /** Every flagged item is a stripped line of the harmful section that passes
      the flag test of the verdict's level ("high risk" or the warning glyph
      for HIGH; "risk" for MODERATE). */
  lemma FlaggedItemsComeFromSection(analysis: string)
    ensures StrippedFrom(Classify(analysis).harmfulList, SectionLines(analysis), Classify(analysis).riskLevel)
  {
    var lines := SectionLines(analysis);
    var v := Classify(analysis);
    if |lines| == 0 {
      NoSectionNoItems(analysis);
    } else if v.harmfulList != [] {
      HarmfulListIsFiltered(analysis);
      if v.riskLevel == High {
        StrippedFlaggedFrom(lines, High, MaxFlagged);
      } else {
        StrippedFlaggedFrom(lines, Moderate, MaxFlagged);
      }
    }
  }

  /** The section of a non-empty analysis that mentions harm is the run of
      lines from the first opening line up to the first closing heading. */
  lemma SectionIsDelimited(analysis: string, s: int, e: int)
    requires MentionsHarm(analysis)
    requires IsFirstStart(SplitLines(analysis), s, StartsSection)
    requires IsSectionEnd(SplitLines(analysis), s, e, EndsSection)
    ensures SectionLines(analysis) == SplitLines(analysis)[s..e]
  {
    forall line | StartsSection(line)
      ensures !EndsSection(line)
    {
      StartNeverEnds(line);
    }
    ScanFindsSection(SplitLines(analysis), s, e, StartsSection, EndsSection);
  }

  // ---------------------------------------------------------------------------
  // Badges

  const HighGlyph: string := "\U{1F534}"
  const ModerateGlyph: string := "\U{1F7E1}"
  const LowGlyph: string := "\U{1F7E2}"
  const UnknownGlyph: string := "\U{26AA}"

  /** `get_risk_emoji`: a lookup in the five-entry glyph table, white circle otherwise. */
  function RiskEmoji(level: string): (glyph: string)
    ensures level == "HIGH" ==> glyph == HighGlyph
    ensures level == "MODERATE" ==> glyph == ModerateGlyph
    ensures level == "LOW" ==> glyph == LowGlyph
    ensures level == "SAFE" ==> glyph == SafeGlyph
    ensures level !in {"HIGH", "MODERATE", "LOW", "SAFE"} ==> glyph == UnknownGlyph
  {
    var glyphs := map["HIGH" := HighGlyph, "MODERATE" := ModerateGlyph, "LOW" := LowGlyph,
                      "SAFE" := SafeGlyph, "UNKNOWN" := UnknownGlyph];
    if level in glyphs then glyphs[level] else UnknownGlyph
  }

  /** Different levels get different badges. */
  lemma EmojiSeparatesLevels(a: RiskLevel, b: RiskLevel)
    requires a != b
    ensures RiskEmoji(a.Name()) != RiskEmoji(b.Name())
  {
  }
}

=== FILE: text.dfy ===
/** The few Python `str` operations the core relies on, over `string` (a
    sequence of Unicode scalar values, one per Python code point):
    `lower()`, `in`, `find()`, `startswith()`, `strip()`, `split('\n')`,
    `'\n'.join()`, `replace(" ", "")`, slicing, and `str(int)`. */
module Text {

  /** `c.lower()` for ASCII letters; every other character is unchanged. */
  function LowerChar(c: char): char
  {
    if 'A' <= c <= 'Z' then (c as int + 32) as char else c
  }

  /** `s.lower()`, letter by letter, so indices in `s` and `Lower(s)` coincide. */
  function Lower(s: string): (r: string)
    ensures |r| == |s|
    ensures forall i :: 0 <= i < |s| ==> r[i] == LowerChar(s[i])
  {
    seq(|s|, i requires 0 <= i < |s| => LowerChar(s[i]))
  }

  /** Text with no upper-case ASCII letter is its own lower case. */
  lemma LowerKeeps(s: string)
    requires forall i :: 0 <= i < |s| ==> !('A' <= s[i] <= 'Z')
    ensures Lower(s) == s
  {
  }

  function Min(a: int, b: int): int
  {
    if a < b then a else b
  }

  /** The Python slice `s[:n]`: the first `n` elements, or all of `s` when it is shorter. */
  function Take<T>(s: seq<T>, n: nat): (r: seq<T>)
    ensures |r| == Min(n, |s|)
    ensures r == s[..|r|]
  {
    if n < |s| then s[..n] else s
  }

  /** `pat` occurs in `s` starting at index `i`. */
  predicate OccursAt(s: string, pat: string, i: int)
  {
    0 <= i && i + |pat| <= |s| && s[i..i + |pat|] == pat
  }

  /** `s.find(pat, i)`: the first index at or after `i` where `pat` occurs, or -1. */
  function FindFrom(s: string, pat: string, i: nat): (r: int)
    requires i <= |s|
    ensures r == -1 || (i <= r && OccursAt(s, pat, r))
    ensures r == -1 ==> forall j :: i <= j ==> !OccursAt(s, pat, j)
    ensures r != -1 ==> forall j :: i <= j < r ==> !OccursAt(s, pat, j)
    decreases |s| - i
  {
    if i + |pat| > |s| then -1
    else if s[i..i + |pat|] == pat then i
    else FindFrom(s, pat, i + 1)
  }

  /** `s.find(pat)`: the least index where `pat` occurs, or -1 when it occurs nowhere. */
  function Find(s: string, pat: string): (r: int)
    ensures r == -1 || OccursAt(s, pat, r)
    ensures r == -1 <==> forall j :: !OccursAt(s, pat, j)
    ensures forall j :: 0 <= j < r ==> !OccursAt(s, pat, j)
  {
    FindFrom(s, pat, 0)
  }

  /** Python's `pat in s`: `pat` is a contiguous substring of `s`. */
  function Contains(s: string, pat: string): (b: bool)
    ensures b <==> exists j :: OccursAt(s, pat, j)
  {
    Find(s, pat) >= 0
  }

  /** A substring of a substring is a substring. */
  lemma ContainsTransitive(s: string, mid: string, pat: string)
    requires Contains(s, mid) && Contains(mid, pat)
    ensures Contains(s, pat)
  {
    var i :| OccursAt(s, mid, i);
    var j :| OccursAt(mid, pat, j);
    assert mid == s[i..i + |mid|];
    forall k | 0 <= k < |pat|
      ensures s[i + j + k] == pat[k]
    {
      assert pat[k] == mid[j + k];
    }
    assert s[i + j..i + j + |pat|] == pat;
    assert OccursAt(s, pat, i + j);
  }

  /** A pattern whose first character never appears in `s` does not occur in it. */
  lemma FirstCharAbsent(s: string, pat: string)
    requires |pat| > 0 && pat[0] !in s
    ensures !Contains(s, pat)
  {
    forall j | 0 <= j
      ensures !OccursAt(s, pat, j)
    {
      if j + |pat| <= |s| {
        assert s[j] in s;
        assert s[j..j + |pat|][0] == s[j];
      }
    }
  }

  /** `s.startswith(p)`. */
  predicate StartsWith(s: string, p: string)
  {
    OccursAt(s, p, 0)
  }

  /** `c.isspace()`: the characters Python's `str.strip()` removes. */
  predicate IsSpace(c: char)
  {
    || '\t' <= c <= '\r'
    || '\U{1C}' <= c <= ' '
    || c == '\U{85}' || c == '\U{A0}' || c == '\U{1680}'
    || '\U{2000}' <= c <= '\U{200A}'
    || c == '\U{2028}' || c == '\U{2029}' || c == '\U{202F}' || c == '\U{205F}' || c == '\U{3000}'
  }

  /** `s.lstrip()`: the suffix of `s` left once leading white space is removed. */
  function TrimStart(s: string): (r: string)
    ensures |r| <= |s| && r == s[|s| - |r|..]
    ensures forall i :: 0 <= i < |s| - |r| ==> IsSpace(s[i])
    ensures |r| > 0 ==> !IsSpace(r[0])
  {
    if |s| > 0 && IsSpace(s[0]) then TrimStart(s[1..]) else s
  }

  /** `s.rstrip()`: the prefix of `s` left once trailing white space is removed. */
  function TrimEnd(s: string): (r: string)
    ensures |r| <= |s| && r == s[..|r|]
    ensures forall i :: |r| <= i < |s| ==> IsSpace(s[i])
    ensures |r| > 0 ==> !IsSpace(r[|r| - 1])
  {
    if |s| > 0 && IsSpace(s[|s| - 1]) then TrimEnd(s[..|s| - 1]) else s
  }

  /** `r` is the piece of `s` at index `a`, and everything of `s` before or
      after that piece is white space. */
  predicate TrimmedAt(s: string, r: string, a: int)
  {
    && OccursAt(s, r, a)
    && (forall i :: 0 <= i < a ==> IsSpace(s[i]))
    && (forall i :: a + |r| <= i < |s| ==> IsSpace(s[i]))
  }

  /** `s.strip()`: `s` without white space at either end. Only white space is
      removed, and the result neither starts nor ends with any. */
  function Strip(s: string): (r: string)
    ensures exists a :: TrimmedAt(s, r, a)
    ensures |r| > 0 ==> !IsSpace(r[0]) && !IsSpace(r[|r| - 1])
  {
    var t := TrimStart(s);
    var r := TrimEnd(t);
    var a := |s| - |t|;
    assert TrimmedAt(s, r, a) by {
      assert s[a..a + |r|] == r;
      forall i | a + |r| <= i < |s|
        ensures IsSpace(s[i])
      {
        assert s[i] == t[i - a];
      }
    }
    r
  }

  /** The two promises of `Strip` pin its result down: any piece of `s`
      surrounded only by white space and neither starting nor ending with
      white space is the stripped text. */
  lemma StripIsUnique(s: string, r: string, a: int)
    requires TrimmedAt(s, r, a)
    requires |r| > 0 ==> !IsSpace(r[0]) && !IsSpace(r[|r| - 1])
    ensures r == Strip(s)
  {
    var r0 := Strip(s);
    var a0 :| TrimmedAt(s, r0, a0);
    assert |r| > 0 ==> s[a] == r[0];
    assert |r0| > 0 ==> s[a0] == r0[0];
    assert |r| > 0 <==> |r0| > 0;
    if |r| > 0 {
      assert a == a0;
      assert s[a + |r| - 1] == r[|r| - 1] && s[a0 + |r0| - 1] == r0[|r0| - 1];
      assert |r| == |r0|;
    }
  }

  /** What `strip()` keeps is a contiguous piece of the line. */
  lemma StripIsSubstring(s: string)
    ensures Contains(s, Strip(s))
  {
    var t := TrimStart(s);
    var r := TrimEnd(t);
    assert OccursAt(t, r, 0);
    assert OccursAt(s, t, |s| - |t|);
    ContainsTransitive(s, t, r);
  }

  /** `s.split('\n')`: the pieces between line breaks; there is always at least one. */
  function SplitLines(s: string): (r: seq<string>)
    ensures |r| >= 1
    ensures forall k :: 0 <= k < |r| ==> '\n' !in r[k]
  {
    if |s| == 0 then [""]
    else
      var rest := SplitLines(s[1..]);
      if s[0] == '\n' then [""] + rest
      else [[s[0]] + rest[0]] + rest[1..]
  }

  /** `'\n'.join(lines)`; the empty list gives the empty string. */
  function JoinLines(lines: seq<string>): string
  {
    if |lines| == 0 then ""
    else if |lines| == 1 then lines[0]
    else lines[0] + "\n" + JoinLines(lines[1..])
  }

  /** Joining the pieces of a split gives back the text. */
  lemma {:induction false} JoinSplitLines(s: string)
    ensures JoinLines(SplitLines(s)) == s
    decreases |s|
  {
    if |s| > 0 {
      var rest := SplitLines(s[1..]);
      JoinSplitLines(s[1..]);
      if s[0] == '\n' {
        assert s == "\n" + s[1..];
      } else if |rest| == 1 {
        assert s == [s[0]] + s[1..];
      } else {
        assert rest == [rest[0]] + rest[1..];
        assert JoinLines(rest) == rest[0] + "\n" + JoinLines(rest[1..]);
        assert s == [s[0]] + s[1..];
      }
    }
  }

  /** Splitting a non-empty list of break-free lines after joining it gives the list back. */
  lemma {:induction false} SplitJoinLines(lines: seq<string>)
    requires |lines| >= 1
    requires forall k :: 0 <= k < |lines| ==> '\n' !in lines[k]
    ensures SplitLines(JoinLines(lines)) == lines
    decreases |lines|, |lines[0]|
  {
    var head := lines[0];
    if |head| == 0 {
      if |lines| > 1 {
        SplitJoinLines(lines[1..]);
        assert JoinLines(lines) == "\n" + JoinLines(lines[1..]);
        assert JoinLines(lines)[1..] == JoinLines(lines[1..]);
      }
    } else {
      var shorter := [head[1..]] + lines[1..];
      assert forall k :: 0 <= k < |shorter| ==> '\n' !in shorter[k] by {
        forall k | 0 <= k < |shorter|
          ensures '\n' !in shorter[k]
        {
          if k == 0 {
            assert forall c :: c in head[1..] ==> c in head;
          } else {
            assert shorter[k] == lines[k];
          }
        }
      }
      SplitJoinLines(shorter);
      assert shorter[1..] == lines[1..];
      var joined := JoinLines(lines);
      if |lines| == 1 {
        assert joined[1..] == JoinLines(shorter);
      } else {
        assert joined == head + "\n" + JoinLines(lines[1..]);
        assert JoinLines(shorter) == head[1..] + "\n" + JoinLines(lines[1..]);
        assert joined[1..] == JoinLines(shorter);
      }
      assert joined[0] == head[0] && head[0] != '\n';
      assert head == [head[0]] + head[1..];
    }
  }

  /** `"".join(parts)`. */
  function Concat(parts: seq<string>): string
  {
    if |parts| == 0 then "" else parts[0] + Concat(parts[1..])
  }

  /** The joined text is the text of the parts before `i`, part `i`, then the rest. */
  lemma {:induction false} ConcatSplit(parts: seq<string>, i: int)
    requires 0 <= i < |parts|
    ensures Concat(parts) == Concat(parts[..i]) + parts[i] + Concat(parts[i + 1..])
  {
    if i > 0 {
      ConcatSplit(parts[1..], i - 1);
      assert parts[1..][..i - 1] == parts[..i][1..];
      assert parts[1..][i - 1] == parts[i];
      assert parts[1..][i..] == parts[i + 1..];
    } else {
      assert parts[..0] == [];
    }
  }

  /** `"".join(f(x) for x in xs)`. */
  function ConcatMap<T>(xs: seq<T>, f: T -> string): string
  {
    Concat(seq(|xs|, i requires 0 <= i < |xs| => f(xs[i])))
  }

  /** The text of `xs[i]` sits right after the text of the elements before it. */
  lemma ConcatMapSplit<T>(xs: seq<T>, f: T -> string, i: int)
    requires 0 <= i < |xs|
    ensures ConcatMap(xs, f) == ConcatMap(xs[..i], f) + f(xs[i]) + ConcatMap(xs[i + 1..], f)
  {
    var parts := seq(|xs|, k requires 0 <= k < |xs| => f(xs[k]));
    ConcatSplit(parts, i);
    assert parts[..i] == seq(i, k requires 0 <= k < i => f(xs[..i][k]));
    assert parts[i + 1..] == seq(|xs| - i - 1, k requires 0 <= k < |xs| - i - 1 => f(xs[i + 1..][k]));
  }

  /** `s.endswith(p)`. */
  predicate EndsWith(s: string, p: string)
  {
    OccursAt(s, p, |s| - |p|)
  }

  lemma PrefixOccurs(a: string, b: string)
    ensures StartsWith(a + b, a)
  {
    assert (a + b)[..|a|] == a;
  }

  lemma SuffixOccurs(a: string, b: string)
    ensures EndsWith(a + b, b)
  {
    assert (a + b)[|a|..] == b;
  }

  lemma PieceOccurs(a: string, x: string, b: string)
    ensures OccursAt(a + x + b, x, |a|)
  {
    assert (a + x + b)[|a|..|a| + |x|] == x;
  }

  /** `s.replace(" ", "")`: `s` with every space character removed. */
  function RemoveSpaces(s: string): (r: string)
    ensures ' ' !in r
    ensures |r| <= |s|
  {
    if |s| == 0 then ""
    else (if s[0] == ' ' then "" else [s[0]]) + RemoveSpaces(s[1..])
  }

  /** Removing spaces works piece by piece, so the other characters keep their order. */
  lemma {:induction false} RemoveSpacesAppend(a: string, b: string)
    ensures RemoveSpaces(a + b) == RemoveSpaces(a) + RemoveSpaces(b)
  {
    if |a| == 0 {
      assert a + b == b;
    } else {
      assert (a + b)[0] == a[0];
      assert (a + b)[1..] == a[1..] + b;
      RemoveSpacesAppend(a[1..], b);
    }
  }

  /** A single character is dropped iff it is a space. */
  lemma RemoveSpacesOne(c: char)
    ensures RemoveSpaces([c]) == if c == ' ' then [] else [c]
  {
  }

  /** Text without a space is left alone. */
  lemma {:induction false} RemoveSpacesKeeps(s: string)
    requires ' ' !in s
    ensures RemoveSpaces(s) == s
  {
    if |s| > 0 {
      assert s[0] in s;
      assert forall c :: c in s[1..] ==> c in s;
      RemoveSpacesKeeps(s[1..]);
      assert s == [s[0]] + s[1..];
    }
  }

  function DigitChar(d: nat): char
    requires d < 10
  {
    ('0' as int + d) as char
  }

  /** The number a string of decimal digits spells, most significant first. */
  function DecimalValue(s: string): int
  {
    if |s| == 0 then 0 else 10 * DecimalValue(s[..|s| - 1]) + (s[|s| - 1] as int - '0' as int)
  }

  /** `str(n)`: the decimal digits of `n`, without leading zeros. */
  function NatToString(n: nat): (r: string)
    ensures |r| >= 1
    ensures forall k :: 0 <= k < |r| ==> '0' <= r[k] <= '9'
    ensures |r| > 1 ==> r[0] != '0'
    ensures DecimalValue(r) == n
  {
    if n < 10 then
      assert [DigitChar(n)][..0] == [];
      [DigitChar(n)]
    else
      var r := NatToString(n / 10) + [DigitChar(n % 10)];
      assert r[..|r| - 1] == NatToString(n / 10);
      r
  }
}

=== FILE: wrappers.dfy ===
/** The Option datatype used for Python values that may be absent (`None`,
    a missing dictionary key, an empty result dictionary). */
module Wrappers {

  datatype Option<+T> = None | Some(value: T) {

    /** The carried value, or `default` when absent, as `dict.get(key, default)` does. */
    function GetOr(default: T): T
    {
      match this
      case Some(v) => v
      case None => default
    }
  }
}
